=== FILE: README.md ===
# smartmob-filestore: logging, request tracing and server lifecycle

A Dafny model of the observability and lifecycle core of `smartmob_filestore`,
an aiohttp file server:

- `FluentLoggerFactory.from_url` reads a `fluent://host[:port]/app` URL into
  the sender's application tag, host and port. A missing port means 24224.
  A wrong scheme, a query, a fragment or a port that Python's `int()` rejects
  raises `Invalid URL: "<url>".`. `int()` itself is modelled in full for ASCII
  digits (module `Decimal`), as Python 3.5, the version the package
  declares, reads them: surrounding whitespace, an optional sign, and one
  or more digits. The whitespace it skips is
  tab through carriage return, space, and the non-ASCII characters
  `str.isspace` accepts; the ASCII separators U+001C to U+001F are not
  skipped.
- `FluentLogger.info` hands the event name to the sender as its tag and the
  remaining fields as its data.
- `TimeStamper` fills in `@timestamp`:
  - a missing or `None` value becomes the ISO form of "now", in UTC or local
    time;
  - a `datetime` becomes its ISO form;
  - anything else is kept.
- `configure_logging` picks a sink from the endpoint:
  - `file://` prints to standard output, standard error or a file, with the
    key-value renderer for the `kv` format and the sorted JSON renderer
    otherwise;
  - `fluent://` forwards to the fluent sender;
  - anything else raises `Invalid logging endpoint "<endpoint>".`.

  Both renderers are modelled by the order of keys they write (module
  `KeyOrder` gives Python's string order). Every sink is shown to deliver
  exactly the stamped event.
- `main` chooses the endpoint from the `--logging-endpoint` argument, then the
  `SMARTMOB_LOGGING_ENDPOINT` variable, then `file:///dev/stdout`. An empty
  value counts as unset.
- `inject_request_id` stores the incoming `x-request-id` header or a fresh
  uuid, and `echo_request_id` copies the stored id, or `?`, onto the
  response.
- `access_log_middleware` emits one `http.access` event per request on each
  of the three paths it handles: response, HTTP error, any other
  `Exception`. Such a crash is logged as 500.
  The event carries the path, the duration, the request id, and the arrival
  time read once when the middleware is built.
- `HTTPServer.__aenter__` / `__aexit__` guard against double entry and
  double exit. Leaving performs the five shutdown calls in order: close, wait
  closed, app shutdown, finish connections with a one-second grace, cleanup.
- `main`'s run is modelled as a trace, with the requests split by where
  their access events land. The server is created, then one access event
  is logged per request whose event lands before `close`; a request still
  in flight at Ctrl-C that finishes before `close` runs is one of these.
  The shutdown calls follow. Requests whose events land after `close`,
  drained by the shutdown, log them before `app.cleanup`. `stop` is logged
  last.

Modules:

- `Wrappers`: `Option` and `Result`.
- `Decimal`: `int()` and `str()`.
- `KeyOrder`: string order and sorted keys.
- `Events`: field values and the stamper.
- `Render`: key-value and JSON layouts.
- `Fluent`: the URL parser and the sender call.
- `Logging`: `configure_logging`, the endpoint choice, one log call end to
  end.
- `Middleware`: the two middlewares and the response hook.
- `Lifecycle`: the `HTTPServer` context manager.
- `Service`: `main`.
- `Vectors`: the repository's test cases restated as lemmas.

Two details of the code shape what the model states:

- `configure_logging` builds the `TimeStamper` with the caller's `utc`
  (lines 120-125) and sets `utc = True` in the fluent branch only afterwards
  (line 145), so the stamper keeps the caller's choice. With `utc=False`
  the sender gets a naive local timestamp, which the repository's own tests
  expect (`Logging.FluentTimestampFollowsCaller`).
- `access_log_middleware` reads the arrival time (line 185) when it builds
  its handler, not when the handler runs. aiohttp 1.x calls the middleware
  factories for every request, so in practice each request's arrival time
  is read as its own chain is built, just before the handler runs. The
  model states the property per middleware instance: every event of one
  instance carries that instance's arrival time, whenever it is emitted
  (`Service.AccessEventKeepsArrivalTime`).

## Model

| member | source | states |
|---|---|---|
| Decimal.Leading | smartmob_filestore/__init__.py:54 | the length of the whitespace run a text starts with: every character before it is whitespace and the one at it is not |
| Decimal.Strip | smartmob_filestore/__init__.py:54 | `int()` ignores surrounding whitespace: the stripped text is the slice that starts right after the leading whitespace run, and it has no whitespace at either end |
| Decimal.StripDropsOnlySpaces | smartmob_filestore/__init__.py:54 | position by position, the text is a whitespace run, then the stripped text, then another whitespace run, so stripping drops only whitespace and keeps the rest in place |
| Decimal.ParseInt | smartmob_filestore/__init__.py:53-56 | `int()` succeeds only on text made of digits, signs and whitespace, so any other character makes the port rejected |
| Decimal.ParseIntAccepts | smartmob_filestore/__init__.py:54 | every text made of whitespace, an optional `+` or `-`, one or more digits and whitespace again parses to the signed value of the digits |
| Decimal.ParseIntShape | smartmob_filestore/__init__.py:54 | conversely, every text that parses is such a text: the input splits into a whitespace run, an optional sign, one or more digits and another whitespace run, and the value is the signed value of those digits |
| Decimal.ParseDigits | smartmob_filestore/__init__.py:54 | a plain run of decimal digits parses to its decimal value |
| Decimal.ParseNegative | smartmob_filestore/__init__.py:54 | a minus sign followed by digits parses to the negated value |
| Decimal.ParseShowRoundTrip | smartmob_filestore/__init__.py:54 | `int(str(n)) == n` for every integer, negative ones included |
| KeyOrder.BelowTransitive | smartmob_filestore/__init__.py:136-143 | the string order the renderers sort keys by is transitive |
| KeyOrder.BelowTotal | smartmob_filestore/__init__.py:136-143 | any two distinct keys are ordered one way or the other |
| KeyOrder.SortedKeys | smartmob_filestore/__init__.py:136-143 | `sorted(keys)`: every key exactly once, nothing else, in strictly increasing order |
| KeyOrder.IncreasingUnique | smartmob_filestore/__init__.py:136-143 | two strictly increasing listings of the same keys are equal, so the sorted order is unique |
| KeyOrder.SortedKeysIsSorted | smartmob_filestore/__init__.py:136-143 | any increasing listing of exactly the keys is the sorted listing |
| Events.Now | smartmob_filestore/__init__.py:101-107 | the stamper's clock is the UTC reading marked as UTC when built with `utc`, and the naive local reading otherwise (used by `Logging.FluentTimestampFollowsCaller`) |
| Events.Stamp | smartmob_filestore/__init__.py:109-116 | only `@timestamp` is added or changed: missing or `None` becomes ISO "now", a datetime becomes its ISO form, any other value is kept |
| Events.StampedIsString | smartmob_filestore/__init__.py:110-115 | after stamping, a missing, `None`, datetime or string timestamp is a string |
| Events.StampIdempotent | smartmob_filestore/__init__.py:109-116 | stamping an already stamped event again, with any stamper and clock, changes nothing |
| Events.StampIgnoresKey | smartmob_filestore/__init__.py:98-116 | the `key` the stamper is built with has no effect on what it writes |
| Render.KeyValueItems | smartmob_filestore/__init__.py:135-139 | the key-value layout is `@timestamp`, then `event`, then every other key of the event exactly once in increasing order, each with its own value |
| Render.JsonItems | smartmob_filestore/__init__.py:140-143 | the JSON layout lists every key of the event exactly once in increasing order, each with its own value |
| Render.JsonRoundTrip | smartmob_filestore/__init__.py:140-143 | reading the JSON layout back gives exactly the event |
| Render.KeyValueRoundTrip | smartmob_filestore/__init__.py:135-139 | for a stamped event, reading the key-value layout back gives exactly the event |
| Fluent.LastIndexOf | smartmob_filestore/__init__.py:48 | the position of the last colon, or none when there is no colon |
| Fluent.SplitPort | smartmob_filestore/__init__.py:48-52 | `rsplit(':', 1)`: host and port text rejoin to the location, and the port text has no colon; with no colon the whole location is the host |
| Fluent.FromUrl | smartmob_filestore/__init__.py:42-57 | for the parts `urlsplit` returns, every rejection is `Invalid URL: "<url>".`; success requires the `fluent` scheme with no query or fragment; the app is the path without its first character, and empty for an empty path |
| Fluent.FromUrlAcceptsExactly | smartmob_filestore/__init__.py:44-56 | a URL is accepted if and only if its scheme is `fluent`, it has neither query nor fragment, and it has no colon in the location or an integer after the last one |
| Fluent.FromUrlDefaultPort | smartmob_filestore/__init__.py:48-50 | with no colon in the location, the whole location is the host and the port is 24224 |
| Fluent.FromUrlRoundTrip | smartmob_filestore/__init__.py:42-57 | given the parts `urlsplit` returns for `fluent://host:port/app` (scheme `fluent`, netloc `host:port`, path `/app`, no query or fragment), parsing gives back the same host, port and app, for every integer port |
| Fluent.FromUrlWithPort | smartmob_filestore/__init__.py:51-57 | with a port text that `int()` accepts, the factory has the host before the last colon, that integer as port, and the path without its first character as app |
| Fluent.FromUrlRejectsBadPort | smartmob_filestore/__init__.py:53-56 | a port text containing a character other than a digit, sign or whitespace is rejected with the URL in the message |
| Fluent.Info | smartmob_filestore/__init__.py:87-88 | the sender gets the event name as its tag and every other field as data, and together they restore the event |
| Logging.Destination | smartmob_filestore/__init__.py:127-133 | `/dev/stdout` and `/dev/stderr` pick the standard streams; any other path is a file |
| Logging.ConfigureLogging | smartmob_filestore/__init__.py:119-152 | a stamper on `@timestamp` with the caller's `utc`. A `file://` endpoint, and only it, prints, to the path's stream, with key-value rendering if and only if the format is `kv`. A `fluent://` endpoint gives a forward sink to exactly the factory `from_url` returns, and fails with the URL error when `from_url` rejects it. Any other endpoint fails with the endpoint error |
| Logging.EndpointSetting | smartmob_filestore/__init__.py:269-273 | a non-empty argument wins, else a non-empty variable, else `file:///dev/stdout` |
| Logging.EndpointSettingChoosesNonEmpty | smartmob_filestore/__init__.py:269-273 | the chosen endpoint is never empty and is one of the three candidates |
| Logging.Emit | smartmob_filestore/__init__.py:149-152 | a print sink writes a line to its own stream, made of the key-value or JSON items of the stamped event as its renderer says; a forward sink calls its own sender with the event name as tag |
| Logging.EmitDeliversStampedEvent | smartmob_filestore/__init__.py:119-152 | whatever the sink, what is delivered is exactly the stamped event: caller fields, event name and timestamp |
| Logging.KeyValueLineStartsWithTimestampAndEvent | smartmob_filestore/__init__.py:135-139 | a key-value line starts with the timestamp and then the event name |
| Logging.ForwardedTimestampIsNow | smartmob_filestore/__init__.py:87-88 | with no timestamp given, the fluent sender receives the stamper's current time in ISO form |
| Logging.FluentTimestampFollowsCaller | smartmob_filestore/__init__.py:121-124 | through a fluent sink the default timestamp is UTC exactly when the caller asked for UTC |
| Middleware.InjectRequestId | smartmob_filestore/__init__.py:161-164 | stores the incoming id when present and non-empty, else the fresh id; path, headers and other stored entries are unchanged |
| Middleware.StoredId | smartmob_filestore/__init__.py:174 | `request.get('x-request-id', '?')`: the stored id, or `?` when the request has none (used by `Middleware.HandleRequestCorrelates`) |
| Middleware.EchoRequestId | smartmob_filestore/__init__.py:174 | the response id header is the stored id, or `?` when none; other headers are unchanged |
| Middleware.LoggedStatus | smartmob_filestore/__init__.py:187-219 | the logged status is the response's or the HTTP error's own status, and 500 for any other exception (used by `Middleware.AccessLog`) |
| Middleware.BuildAccessLog | smartmob_filestore/__init__.py:185 | building the middleware reads the UTC wall clock and marks the reading as UTC (used by `Service.RunMiddleware`, which `Service.RunMain` and `Service.Layout` build on) |
| Middleware.AccessLog | smartmob_filestore/__init__.py:187-219 | on every outcome, one `http.access` call with exactly the path, status (500 after a crash), duration, request id and arrival time, and the outcome passes through unchanged |
| Middleware.HandleRequestCorrelates | smartmob_filestore/__init__.py:161-196 | the id in the access event and on the response is the incoming header when present and non-empty, the fresh id otherwise |
| Middleware.HandleRequest | smartmob_filestore/__init__.py:161-219 | through the whole chain each request is recorded by its own event, its outcome passes through, and the response carries an id exactly when the handler did not crash |
| Middleware.AccessLogAllRecords | smartmob_filestore/__init__.py:180-221 | a run of requests through one middleware logs one event per request, the i-th recording the i-th request |
| Lifecycle.NewServer | smartmob_filestore/__init__.py:227-233 | a context manager starts with no server and no calls made (used by `Lifecycle.EnterExitCycle`) |
| Lifecycle.Enter | smartmob_filestore/__init__.py:235-239 | entering succeeds if and only if no server is running; otherwise `AssertionError`; on success the server is created on the given host and port |
| Lifecycle.Exit | smartmob_filestore/__init__.py:241-248 | leaving succeeds if and only if a server is running; otherwise `AssertionError`; on success the five shutdown calls are made in order and the server is cleared |
| Lifecycle.EnterExitCycle | smartmob_filestore/__init__.py:235-248 | entering and leaving a fresh manager makes exactly create, close, wait closed, shutdown, finish connections (1.0) and cleanup, and leaves it idle |
| Lifecycle.GuardsAlternate | smartmob_filestore/__init__.py:236-242 | neither guard can be passed twice in a row, and each success enables the other |
| Service.RunMain | smartmob_filestore/__init__.py:276-280 | a run fails exactly when its logging endpoint is rejected, with that error, before anything is served; otherwise it installs that configuration |
| Service.MainFollowsLayout | smartmob_filestore/__init__.py:306-312 | a configured run's trace is: create the server, one access event per request that logs before `close`, the five shutdown calls with the drained requests' events among them, `stop` |
| Service.Shutdown | smartmob_filestore/__init__.py:241-248 | the `__aexit__` calls from the `k`-th on, with each drained request's access event placed once the calls its stage follows have been made and never before the request ahead of it: one entry per call and per drained request (`Service.ShutdownKeepsSteps`, `Service.ShutdownLogsDrained` and `Service.ShutdownEndsWithLastStep` state the order) |
| Service.ShutdownKeepsSteps | smartmob_filestore/__init__.py:241-248 | drained requests logging during `__aexit__` never add, drop or reorder its calls |
| Service.ShutdownLogsDrained | smartmob_filestore/__init__.py:187-219 | during the shutdown each drained request logs one access event, in order, recording it |
| Service.ShutdownEndsWithLastStep | smartmob_filestore/__init__.py:246-247 | every drained request has logged before `app.cleanup`, the last shutdown call |
| Service.LayoutOrder | smartmob_filestore/__init__.py:306-312 | the server is created first; `close` follows the events of the requests that log before `close`; the server calls are create and the five shutdown calls in order; `app.cleanup` comes after every access event and `stop` is last |
| Service.LayoutServedEvents | smartmob_filestore/__init__.py:187-219 | between create and close there is one access event per request that logs before `close`, each recording its request |
| Service.LayoutShutdownSegment | smartmob_filestore/__init__.py:241-248 | from `close` to `stop` the trace opens with `close`, ends with `app.cleanup`, makes the five shutdown calls in order, and logs exactly one event per drained request, each recording it |
| Service.StopOnlyAtEnd | smartmob_filestore/__init__.py:312 | no entry before the last one is the `stop` call |
| Service.StopLoggedOnceAtEnd | smartmob_filestore/__init__.py:306-312 | `stop` is logged exactly once, as the final entry, after the server is closed |
| Service.MainDefaultsToJsonOnStdout | smartmob_filestore/__init__.py:269-280 | with neither argument nor variable set, the run logs sorted JSON to standard output with UTC timestamps |
| Service.AccessEventKeepsArrivalTime | smartmob_filestore/__init__.py:185-197 | whatever the sink and the time of emission, an access event is delivered with the ISO form of its middleware's arrival time |
| Vectors.FluentUrlWithPort | tests/test_logging.py:107-116 | `fluent://127.0.0.1:24224/the-app` gives host 127.0.0.1, port 24224, app `the-app` |
| Vectors.FluentUrlWithoutPort | tests/test_logging.py:109-110 | without a port the fluentd default is used, and a bare `/` gives an empty app |
| Vectors.FluentUrlRejected | tests/test_logging.py:119-128 | a non-numeric port, the scheme `fluentd` and a query string are each rejected with the URL in the message |
| Vectors.FileEndpoints | tests/test_logging.py:31-73 | the stdout, stderr and `./gitmesh.log` endpoints print to the matching stream with key-value rendering |
| Vectors.UnknownScheme | tests/test_logging.py:76-86 | `flume://127.0.0.1:44444` is rejected with the endpoint message |
| Vectors.KeyValueOrder | tests/test_logging.py:89-105 | `log.info('teh.event', a=1, b=2)` configured with `kv` and `file:///dev/stderr` writes a line to standard error listing `@timestamp`, `event`, `a`, `b` |
| Vectors.JsonOrder | tests/test_logging.py:89-105 | the same call configured with `json` writes a line to standard error listing `@timestamp`, `a`, `b`, `event` |
| Vectors.FluentEndpointConfig | tests/test_logging.py:131-142 | `configure_logging('kv', utc=False, 'fluent://127.0.0.1:24224/the-app')` forwards to the sender for host 127.0.0.1, port 24224, app `the-app`, with local timestamps; the format is ignored |
| Vectors.FluentEmission | tests/test_logging.py:131-151 | with `utc=False` the sender gets tag `teh.event` and the fields with a naive local timestamp |
| Vectors.FluentEmissionKeepsTextTimestamp | tests/test_logging.py:154-175 | a timestamp given as text reaches the sender unchanged |
| Vectors.FluentEmissionFormatsTimestamp | tests/test_logging.py:154-175 | a timestamp given as a datetime reaches the sender in ISO form |

## Left out

- I/O: opening, writing and flushing the log stream or file, and the error
  raised when a log file cannot be opened. A sink is modelled as its
  destination and the ordered items it writes.
- Value encoding: how `repr` and `json.dumps` write a value, and the
  rendered text of a line. The layouts keep the keys and values in order.
- The fluent sender's socket, msgpack framing, tag prefix and buffering. A
  forward sink is modelled as the `emit(tag, data)` call it receives.
- `urlsplit`, `uuid.uuid4`, `datetime.utcnow`/`now`, `datetime.isoformat` and
  `timeit.default_timer` are parameters. `isoformat` is an uninterpreted
  function, the wall clock is a pair of readings, and the monotonic clock is
  two integer tick readings around the handler. Floating-point durations and
  calendar arithmetic are not modelled.
- Python's `int()` is modelled for ASCII digits only.
  Non-ASCII decimal digits and the interpreter's limit on the length of digit
  strings are left out.
- Decimal.ParseInt: follows Python 3.5, which the package declares. Python
  3.6 and later also accept single underscores between digits, so there a
  port such as `24_224` is read as 24224 where the model rejects the URL.
- Fluent.FromUrl: `urlsplit`'s own exceptions are not modelled. For example,
  `fluent://[::1/app` has an unbalanced bracket, so `urlsplit` raises
  `ValueError("Invalid IPv6 URL")` before `from_url` checks anything. The
  model takes the parts as given, so "every rejection is `Invalid URL`"
  holds for the URLs `urlsplit` accepts.
- Fluent.FromUrlRoundTrip: states the round trip from the parts `urlsplit`
  returns, not from URL text. Those parts come from the text
  `fluent://host:port/app` only when the host has no `/`, `?`, `#` or square
  bracket and the app has no `?` or `#`. An app `a?b`, for instance, ends up
  in the query, and the URL is rejected.
- Header names are written in lower case. The HTTP library's
  case-insensitive header lookup is not modelled.
- Middleware.HandleRequestCorrelates: the `x-request-id` header of the error
  page the HTTP library writes after a crash is not modelled (`None`),
  because that page is produced outside this code.
- How often the HTTP library calls the middleware factories is library
  behaviour. The model builds one access-log instance per run
  (`Service.RunMiddleware`) and states per-instance properties.
- Concurrency: the access events of a run form one sequence, in the order
  they are logged. A drained request logs at one of four shutdown stages:
  after `close`, after `wait_closed`, after `app.shutdown`, or while
  `finish_connections` waits. Interleaving of handler steps, and of writes
  to the fluent connection, is not modelled.
- Cancellation (`aiotk.handle_ctrlc`) is not modelled as an event. The
  requests of a run are split by where their access events land: before
  `close`, or during the shutdown. Signal delivery is not modelled.
- Middleware.AccessLog: two paths through the middleware log no event, or
  log two, and are not modelled.
  - A `BaseException` that is not an `Exception` passes through with no
    event. Examples are `KeyboardInterrupt`, `SystemExit`, and the
    `CancelledError` raised in handlers still running when their
    connections are shut down (Python 3.8 and later).
  - If `event_log.info` itself raises after a response, inside the `try`,
    the `except Exception` branch logs a second event with 500 and re-raises
    in place of the response.

  The model assumes the log call returns, and treats a cancellation before
  Python 3.8 as a crash.
- The guards in `__aenter__`/`__aexit__` are `assert` statements. Running
  Python with `-O` removes them; the model keeps them.
- `create_server` failing to bind and the shutdown calls failing are not
  modelled. Each step is recorded as made.
- `GraceSeconds` (the 1.0 passed to `finish_connections`) is a real constant
  and is only recorded, never interpreted.
- An `event` keyword argument clashing with the event name (a `TypeError` in
  Python) is modelled as the event name overriding it.
- The upload and static-file routes, argument parsing, `--version`,
  `--storage`, `__main__.py` and `setup.py` are not part of this model.

=== FILE: decimal.dfy ===
/** Decimal integers as Python 3.5's `int(text)` reads them: surrounding
    whitespace is ignored, one optional sign, then one or more decimal
    digits. No range check is applied, so any
    integer (negative ones included) can come out. */
module Decimal {
  import opened Wrappers

  predicate IsDigit(c: char) {
    '0' <= c <= '9'
  }

  function DigitValue(c: char): nat
    requires IsDigit(c)
  {
    c as int - '0' as int
  }

  function DigitChar(d: nat): (c: char)
    requires d < 10
    ensures IsDigit(c) && DigitValue(c) == d
  {
    (d + '0' as int) as char
  }

  predicate AllDigits(s: string) {
    forall i :: 0 <= i < |s| ==> IsDigit(s[i])
  }

  /** The value of a string of decimal digits, most significant first. */
  function DigitsValue(s: string): nat
    requires AllDigits(s)
  {
    if |s| == 0 then 0 else DigitsValue(s[..|s| - 1]) * 10 + DigitValue(s[|s| - 1])
  }

  /** The shortest decimal rendering of `n`; reading it back gives `n`. */
  function ShowNat(n: nat): (r: string)
    ensures |r| > 0 && AllDigits(r)
    ensures DigitsValue(r) == n
  {
    if n < 10 then [DigitChar(n)]
    else
      var r := ShowNat(n / 10) + [DigitChar(n % 10)];
      assert r[..|r| - 1] == ShowNat(n / 10);
      r
  }

  /** Decimal rendering of a signed integer, as Python's `str(n)`. */
  function ShowInt(n: int): (r: string)
    ensures |r| > 0
    ensures n >= 0 <==> IsDigit(r[0])
  {
    if n < 0 then "-" + ShowNat(-n) else ShowNat(n)
  }

  /** The whitespace `int()` skips at either end of its argument: the ASCII
      tab, line feed, vertical tab, form feed, carriage return and space,
      and the characters above U+007F that `str.isspace` accepts (`int()`
      turns those into spaces first). The ASCII separators U+001C..U+001F,
      although `str.isspace` accepts them, are not skipped. */
  predicate IsSpace(c: char) {
    || ('\U{9}' <= c <= '\U{D}')
    || c == ' '
    || c == '\U{85}' || c == '\U{A0}' || c == '\U{1680}'
    || ('\U{2000}' <= c <= '\U{200A}')
    || c == '\U{2028}' || c == '\U{2029}' || c == '\U{202F}' || c == '\U{205F}'
    || c == '\U{3000}'
  }

  /** The length of the whitespace run `s` starts with. */
  function Leading(s: string): (n: nat)
    ensures n <= |s|
    ensures forall i :: 0 <= i < n ==> IsSpace(s[i])
    ensures n < |s| ==> !IsSpace(s[n])
  {
    if |s| > 0 && IsSpace(s[0]) then
      assert forall i :: 1 <= i < |s| ==> s[i] == s[1..][i - 1];
      1 + Leading(s[1..])
    else 0
  }

  /** `s` without its trailing whitespace. */
  function TrimRight(s: string): (r: string)
    ensures |r| <= |s| && r == s[..|r|]
    ensures |r| > 0 ==> !IsSpace(r[|r| - 1])
    ensures |s| > 0 && !IsSpace(s[|s| - 1]) ==> r == s
  {
    if |s| > 0 && IsSpace(s[|s| - 1]) then TrimRight(s[..|s| - 1]) else s
  }

  lemma {:induction false} TrimRightDropsOnlySpaces(s: string)
    ensures forall i :: |TrimRight(s)| <= i < |s| ==> IsSpace(s[i])
  {
    if |s| > 0 && IsSpace(s[|s| - 1]) {
      TrimRightDropsOnlySpaces(s[..|s| - 1]);
    }
  }

  /** `s` without its leading and trailing whitespace: the slice of `s`
      that starts after the leading whitespace run and ends before the
      trailing one. */
  function Strip(s: string): (r: string)
    ensures Leading(s) + |r| <= |s| && r == s[Leading(s)..Leading(s) + |r|]
    ensures |r| > 0 ==> !IsSpace(r[0]) && !IsSpace(r[|r| - 1])
    ensures |s| > 0 && !IsSpace(s[0]) && !IsSpace(s[|s| - 1]) ==> r == s
  {
    TrimRight(s[Leading(s)..])
  }

  /** `Strip` cuts `s` into a whitespace run, the result, and another
      whitespace run: every character it drops is whitespace and every
      other character keeps its place. */
  lemma StripDropsOnlySpaces(s: string)
    ensures forall i :: 0 <= i < Leading(s) ==> IsSpace(s[i])
    ensures Strip(s) == s[Leading(s)..Leading(s) + |Strip(s)|]
    ensures forall i :: Leading(s) + |Strip(s)| <= i < |s| ==> IsSpace(s[i])
  {
    var a := Leading(s);
    var t := s[a..];
    TrimRightDropsOnlySpaces(t);
    forall i | a + |Strip(s)| <= i < |s|
      ensures IsSpace(s[i])
    {
      assert s[i] == t[i - a];
    }
  }

  predicate IsIntChar(c: char) {
    IsDigit(c) || c == '+' || c == '-' || IsSpace(c)
  }

  /** The unsigned body of an integer literal: one or more digits. */
  function ParseUnsigned(b: string): Option<nat> {
    if |b| > 0 && AllDigits(b) then Some(DigitsValue(b)) else None
  }

  /** A stripped integer literal: an optional sign, then the body. */
  function ParseSigned(t: string): Option<int> {
    if |t| > 0 && t[0] == '-' then
      match ParseUnsigned(t[1..])
      case Some(m) => Some(-(m as int))
      case None => None
    else if |t| > 0 && t[0] == '+' then
      match ParseUnsigned(t[1..])
      case Some(m) => Some(m as int)
      case None => None
    else
      match ParseUnsigned(t)
      case Some(m) => Some(m as int)
      case None => None
  }

  /** Python's `int(s)`: `None` stands for the `ValueError` it raises. A
      text holding any character other than digits, signs and whitespace
      is rejected, so `"abcd"` is never a port. */
  function ParseInt(s: string): (r: Option<int>)
    ensures r.Some? ==> forall i :: 0 <= i < |s| ==> IsIntChar(s[i])
  {
    assert ParseSigned(Strip(s)).Some? ==> forall i :: 0 <= i < |s| ==> IsIntChar(s[i]) by {
      forall i | 0 <= i < |s| && !IsIntChar(s[i])
        ensures ParseSigned(Strip(s)).None?
      {
        StrippedRejectsForeignChars(s, i);
      }
    }
    ParseSigned(Strip(s))
  }

  /** A character that is none of digit, sign and whitespace survives
      stripping and then fails the literal. */
  lemma StrippedRejectsForeignChars(s: string, i: nat)
    requires i < |s| && !IsIntChar(s[i])
    ensures ParseSigned(Strip(s)) == None
  {
    StripDropsOnlySpaces(s);
    var t := Strip(s);
    var k := i - Leading(s);
    assert 0 <= k < |t| && t[k] == s[i];
    if |t| > 0 && (t[0] == '-' || t[0] == '+') {
      assert k > 0;
      assert t[1..][k - 1] == s[i];
    }
  }

  predicate IsBlank(w: string) {
    forall i :: 0 <= i < |w| ==> IsSpace(w[i])
  }

  /** The optional sign of an integer literal. */
  predicate IsSign(sign: string) {
    sign == "" || sign == "+" || sign == "-"
  }

  /** The value of a literal with sign `sign` and digits worth `m`. */
  function Signed(sign: string, m: nat): int {
    if sign == "-" then -(m as int) else m as int
  }

  /** The sign a stripped literal starts with, if any. */
  function SignPart(t: string): string {
    if |t| > 0 && (t[0] == '-' || t[0] == '+') then t[..1] else ""
  }

  /** A stripped literal after its sign. */
  function Body(t: string): string {
    t[|SignPart(t)|..]
  }

  lemma LeadingOfBlank(w: string, t: string)
    requires IsBlank(w) && |t| > 0 && !IsSpace(t[0])
    ensures Leading(w + t) == |w|
  {
    var s := w + t;
    assert !IsSpace(s[|w|]);
    assert forall i :: 0 <= i < |w| ==> IsSpace(s[i]);
  }

  lemma TrimRightOfBlank(t: string, w: string)
    requires IsBlank(w) && |t| > 0 && !IsSpace(t[|t| - 1])
    ensures TrimRight(t + w) == t
  {
    var s := t + w;
    TrimRightDropsOnlySpaces(s);
    var r := TrimRight(s);
    assert !IsSpace(s[|t| - 1]);
    assert forall j :: |t| <= j < |s| ==> IsSpace(s[j]);
    assert |r| == |t|;
    assert r == s[..|t|];
  }

  /** Around a text with no whitespace at its ends, `Strip` removes
      exactly the whitespace runs on either side. */
  lemma StripOfBlanks(w1: string, u: string, w2: string)
    requires IsBlank(w1) && IsBlank(w2)
    requires |u| > 0 && !IsSpace(u[0]) && !IsSpace(u[|u| - 1])
    ensures Strip(w1 + u + w2) == u
  {
    var s := w1 + u + w2;
    assert s == w1 + (u + w2);
    LeadingOfBlank(w1, u + w2);
    assert s[|w1|..] == u + w2;
    TrimRightOfBlank(u, w2);
  }

  lemma ParseIntIsSigned(s: string)
    ensures ParseInt(s) == ParseSigned(Strip(s))
  {
  }

  /** A sign followed by digits is read as the signed value of the digits. */
  lemma ParseSignedLiteral(sign: string, d: string)
    requires IsSign(sign) && |d| > 0 && AllDigits(d)
    ensures ParseSigned(sign + d) == Some(Signed(sign, DigitsValue(d)))
  {
    var u := sign + d;
    assert IsDigit(d[0]);
    if sign == "" {
      assert u == d;
    } else {
      assert u[0] == sign[0] && u[1..] == d;
    }
  }

  /** A literal `ParseSigned` accepts is a sign and one or more digits. */
  lemma ParseSignedShape(t: string)
    requires ParseSigned(t).Some?
    ensures t == SignPart(t) + Body(t)
    ensures IsSign(SignPart(t)) && |Body(t)| > 0 && AllDigits(Body(t))
    ensures ParseSigned(t) == Some(Signed(SignPart(t), DigitsValue(Body(t))))
  {
    if |t| > 0 && (t[0] == '-' || t[0] == '+') {
      assert SignPart(t) == [t[0]];
      assert Body(t) == t[1..];
    } else {
      assert Body(t) == t;
    }
  }

  lemma BlankSlice(s: string, lo: nat, hi: nat)
    requires lo <= hi <= |s|
    requires forall i :: lo <= i < hi ==> IsSpace(s[i])
    ensures IsBlank(s[lo..hi])
  {
    forall i | 0 <= i < hi - lo
      ensures IsSpace(s[lo..hi][i])
    {
      assert s[lo..hi][i] == s[lo + i];
    }
  }

  lemma SliceThree(s: string, a: nat, e: nat)
    requires a <= e <= |s|
    ensures s == s[..a] + s[a..e] + s[e..]
  {
  }

  /** `s` is the whitespace `Strip` drops, its result, and more whitespace. */
  lemma StripCut(s: string)
    ensures s == s[..Leading(s)] + Strip(s) + s[Leading(s) + |Strip(s)|..]
    ensures IsBlank(s[..Leading(s)]) && IsBlank(s[Leading(s) + |Strip(s)|..])
  {
    StripDropsOnlySpaces(s);
    var a := Leading(s);
    var e := a + |Strip(s)|;
    SliceThree(s, a, e);
    BlankSlice(s, 0, a);
    BlankSlice(s, e, |s|);
    assert s[..a] == s[0..a];
  }

  lemma Regroup(x: string, p: string, q: string, y: string)
    ensures x + (p + q) + y == x + p + q + y
  {
  }

  lemma LiteralEnds(sign: string, d: string)
    requires IsSign(sign) && |d| > 0 && AllDigits(d)
    ensures !IsSpace((sign + d)[0]) && !IsSpace((sign + d)[|sign + d| - 1])
  {
    assert IsDigit(d[0]) && IsDigit(d[|d| - 1]);
  }

  /** Whitespace, an optional sign, one or more digits and whitespace
      again: `int()` reads every such text as the signed value of its
      digits. */
  lemma ParseIntAccepts(w1: string, sign: string, d: string, w2: string)
    requires IsBlank(w1) && IsSign(sign) && |d| > 0 && AllDigits(d) && IsBlank(w2)
    ensures ParseInt(w1 + sign + d + w2) == Some(Signed(sign, DigitsValue(d)))
  {
    var u := sign + d;
    LiteralEnds(sign, d);
    Regroup(w1, sign, d, w2);
    StripOfBlanks(w1, u, w2);
    ParseIntIsSigned(w1 + u + w2);
    ParseSignedLiteral(sign, d);
  }

  /** Conversely, every text `int()` accepts has that form: the whitespace
      `Strip` drops, an optional sign, one or more digits, and the
      whitespace after them; its value is the signed value of the digits. */
  lemma ParseIntShape(s: string)
    requires ParseInt(s).Some?
    ensures s == s[..Leading(s)] + SignPart(Strip(s)) + Body(Strip(s)) + s[Leading(s) + |Strip(s)|..]
    ensures IsBlank(s[..Leading(s)]) && IsBlank(s[Leading(s) + |Strip(s)|..])
    ensures IsSign(SignPart(Strip(s))) && |Body(Strip(s))| > 0 && AllDigits(Body(Strip(s)))
    ensures ParseInt(s) == Some(Signed(SignPart(Strip(s)), DigitsValue(Body(Strip(s)))))
  {
    var t := Strip(s);
    ParseIntIsSigned(s);
    ParseSignedShape(t);
    StripCut(s);
    Regroup(s[..Leading(s)], SignPart(t), Body(t), s[Leading(s) + |t|..]);
  }

  /** Text with no whitespace at either end is parsed as it stands. */
  lemma ParseStripped(s: string)
    requires |s| > 0 && !IsSpace(s[0]) && !IsSpace(s[|s| - 1])
    ensures ParseInt(s) == ParseSigned(s)
  {
  }

  /** A plain run of digits is read as its decimal value. */
  lemma ParseDigits(d: string)
    requires |d| > 0 && AllDigits(d)
    ensures ParseInt(d) == Some(DigitsValue(d))
  {
    assert IsDigit(d[0]) && IsDigit(d[|d| - 1]);
    ParseStripped(d);
  }

  lemma StripNegative(s: string, d: string)
    requires |d| > 0 && AllDigits(d) && s == "-" + d
    ensures Strip(s) == s
  {
    assert s[0] == '-';
    assert IsDigit(d[|d| - 1]) && s[|s| - 1] == d[|d| - 1];
  }

  lemma ParseSignedNegative(s: string, d: string)
    requires |d| > 0 && AllDigits(d) && s == "-" + d
    ensures ParseSigned(s) == Some(-(DigitsValue(d) as int))
  {
    assert s[0] == '-' && s[1..] == d;
  }

  /** A minus sign in front of digits negates their value. */
  lemma ParseNegative(s: string, d: string)
    requires |d| > 0 && AllDigits(d) && s == "-" + d
    ensures ParseInt(s) == Some(-(DigitsValue(d) as int))
  {
    StripNegative(s, d);
    ParseSignedNegative(s, d);
    ParseStripped(s);
  }

  /** `str` and `int` are inverse on every integer. */
  lemma ParseShowRoundTrip(n: int)
    ensures ParseInt(ShowInt(n)) == Some(n)
  {
    if n < 0 {
      ParseNegative(ShowInt(n), ShowNat(-n));
    } else {
      ParseDigits(ShowNat(n));
    }
  }
}

=== FILE: events.dfy ===
/** Structured events as structlog passes them between processors: a
    dictionary from field names to values, and the timestamp processor
    that every configured pipeline starts with. */
module Events {

  /** Whether a `datetime` carries the UTC offset or is naive local time. */
  datatype Zone = Naive | Utc

  /** A `datetime`. Calendar arithmetic and time zones are not modelled:
      `reading` is what the clock returned, `zone` whether it is aware. */
  datatype DateTime = DateTime(reading: int, zone: Zone)

  /** The values an event field can hold. `Null` is Python's `None`. */
  datatype Value = Null | Bool(b: bool) | Int(i: int) | Str(s: string) | Time(t: DateTime)

  /** An event dictionary. */
  type Fields = map<string, Value>

  const TimestampKey: string := "@timestamp"
  const EventKey: string := "event"

  /** What a frozen wall clock reads: `datetime.utcnow()` and
      `datetime.now()`. */
  datatype WallClock = WallClock(utcNow: int, localNow: int)

  /** The processor built by `TimeStamper(key, utc)`. It remembers `key`
      but never reads it. */
  datatype TimeStamper = TimeStamper(key: string, utc: bool)

  /** The stamper's clock: an aware UTC time when built with `utc`, a naive
      local time otherwise. */
  function Now(stamper: TimeStamper, clock: WallClock): (t: DateTime)
    ensures t.zone == Utc <==> stamper.utc
    ensures stamper.utc ==> t.reading == clock.utcNow
    ensures !stamper.utc ==> t.reading == clock.localNow
  {
    if stamper.utc then DateTime(clock.utcNow, Utc) else DateTime(clock.localNow, Naive)
  }

  /** Running the stamper on an event: a missing or `None` timestamp becomes
      the ISO form of the stamper's current time, a `datetime` becomes its
      ISO form, anything else is kept. Only `@timestamp` is written,
      whatever `key` the stamper was built with. `iso` is
      `datetime.isoformat`, left uninterpreted. */
  function Stamp(stamper: TimeStamper, clock: WallClock, iso: DateTime -> string, fields: Fields): (r: Fields)
    ensures r.Keys == fields.Keys + {TimestampKey}
    ensures forall k :: k in fields && k != TimestampKey ==> r[k] == fields[k]
    ensures TimestampKey !in fields || fields[TimestampKey] == Null ==>
      r[TimestampKey] == Str(iso(Now(stamper, clock)))
    ensures TimestampKey in fields && fields[TimestampKey].Time? ==>
      r[TimestampKey] == Str(iso(fields[TimestampKey].t))
    ensures TimestampKey in fields && fields[TimestampKey] != Null && !fields[TimestampKey].Time? ==>
      r[TimestampKey] == fields[TimestampKey]
  {
    var given := if TimestampKey in fields then fields[TimestampKey] else Null;
    var t := if given == Null then Time(Now(stamper, clock)) else given;
    var written := if t.Time? then Str(iso(t.t)) else t;
    fields[TimestampKey := written]
  }

  /** After stamping, the timestamp is a string. */
  lemma StampedIsString(stamper: TimeStamper, clock: WallClock, iso: DateTime -> string, fields: Fields)
    requires TimestampKey !in fields || fields[TimestampKey] == Null || fields[TimestampKey].Time? || fields[TimestampKey].Str?
    ensures Stamp(stamper, clock, iso, fields)[TimestampKey].Str?
  {
  }

  /** Stamping an event that was already stamped changes nothing, whatever
      the second stamper and clock. */
  lemma StampIdempotent(s1: TimeStamper, c1: WallClock, s2: TimeStamper, c2: WallClock,
                        iso: DateTime -> string, fields: Fields)
    ensures Stamp(s2, c2, iso, Stamp(s1, c1, iso, fields)) == Stamp(s1, c1, iso, fields)
  {
    var once := Stamp(s1, c1, iso, fields);
    var twice := Stamp(s2, c2, iso, once);
    assert once[TimestampKey] != Null;
    assert twice.Keys == once.Keys;
  }

  /** The `key` argument has no effect: two stampers that differ only in
      it stamp every event identically. */
  lemma StampIgnoresKey(k1: string, k2: string, utc: bool, clock: WallClock,
                        iso: DateTime -> string, fields: Fields)
    ensures Stamp(TimeStamper(k1, utc), clock, iso, fields) == Stamp(TimeStamper(k2, utc), clock, iso, fields)
  {
  }
}

=== FILE: fluent.dfy ===
/** The fluent logging endpoint: `FluentLoggerFactory.from_url`, which
    reads `fluent://host[:port]/app`, and `FluentLogger.info`, which hands
    one event to the fluent sender. The URL is given already split, as
    `urllib.parse.urlsplit` returns it. */
module Fluent {
  import opened Wrappers
  import opened Decimal
  import opened Events

  /** The fluent forwarder's conventional port. */
  const DefaultPort: int := 24224

  /** The five parts `urlsplit` returns. */
  datatype UrlParts = UrlParts(scheme: string, netloc: string, path: string, query: string, fragment: string)

  /** What `from_url` builds: the application tag, host and port the fluent
      sender is created with. */
  datatype FluentLoggerFactory = FluentLoggerFactory(app: string, host: string, port: int)

  /** The message of the `ValueError` every rejection raises. */
  function InvalidUrl(url: string): string {
    "Invalid URL: \"" + url + "\"."
  }

  /** Index of the last occurrence of `c` in `s`. */
  function LastIndexOf(s: string, c: char): (r: Option<nat>)
    ensures r.Some? ==> r.value < |s| && s[r.value] == c
    ensures r.Some? ==> forall j :: r.value < j < |s| ==> s[j] != c
    ensures r.None? ==> forall j :: 0 <= j < |s| ==> s[j] != c
  {
    if |s| == 0 then None
    else if s[|s| - 1] == c then Some(|s| - 1)
    else LastIndexOf(s[..|s| - 1], c)
  }

  /** `netloc.rsplit(':', 1)`: the host, and the port text when there is a
      colon. */
  function SplitPort(netloc: string): (r: (string, Option<string>))
    ensures r.1.None? ==> r.0 == netloc && ':' !in netloc
    ensures r.1.Some? ==> netloc == r.0 + ":" + r.1.value && ':' !in r.1.value
  {
    match LastIndexOf(netloc, ':')
    case None => (netloc, None)
    case Some(i) =>
      assert netloc == netloc[..i] + ":" + netloc[i + 1..];
      (netloc[..i], Some(netloc[i + 1..]))
  }

  /** `s[1:]`, which is empty for an empty `s`. */
  function DropFirst(s: string): string {
    if |s| == 0 then [] else s[1..]
  }

  /** `FluentLoggerFactory.from_url(url)`, given `urlsplit(url)`. */
  function FromUrl(url: string, parts: UrlParts): (r: Result<FluentLoggerFactory, string>)
    ensures r.Failure? ==> r.error == InvalidUrl(url)
    ensures r.Success? ==> parts.scheme == "fluent" && parts.query == "" && parts.fragment == ""
    ensures r.Success? && |parts.path| == 0 ==> r.value.app == ""
    ensures r.Success? && |parts.path| > 0 ==> parts.path == [parts.path[0]] + r.value.app
  {
    if parts.scheme != "fluent" then Failure(InvalidUrl(url))
    else if parts.query != "" || parts.fragment != "" then Failure(InvalidUrl(url))
    else
      var (host, portText) := SplitPort(parts.netloc);
      match portText
      case None => Success(FluentLoggerFactory(DropFirst(parts.path), host, DefaultPort))
      case Some(text) =>
        match ParseInt(text)
        case None => Failure(InvalidUrl(url))
        case Some(port) => Success(FluentLoggerFactory(DropFirst(parts.path), host, port))
  }

  /** `from_url` accepts exactly the URLs with the `fluent` scheme, no
      query, no fragment, and either no colon in the network location or an
      integer after its last colon. */
  lemma FromUrlAcceptsExactly(url: string, parts: UrlParts)
    ensures FromUrl(url, parts).Success? <==>
      && parts.scheme == "fluent"
      && parts.query == ""
      && parts.fragment == ""
      && (SplitPort(parts.netloc).1.None? || ParseInt(SplitPort(parts.netloc).1.value).Some?)
  {
  }

  /** With no colon in the network location, all of it is the host and the
      port is 24224. */
  lemma FromUrlDefaultPort(url: string, host: string, path: string)
    requires ':' !in host
    ensures FromUrl(url, UrlParts("fluent", host, path, "", "")) ==
      Success(FluentLoggerFactory(DropFirst(path), host, DefaultPort))
  {
  }

  /** The URL a factory is written as. */
  function ToUrlParts(f: FluentLoggerFactory): UrlParts {
    UrlParts("fluent", f.host + ":" + ShowInt(f.port), "/" + f.app, "", "")
  }

  lemma ShowIntHasNoColon(n: int)
    ensures ':' !in ShowInt(n)
  {
    var s := ShowInt(n);
    if n < 0 {
      assert forall i :: 1 <= i < |s| ==> s[i] == ShowNat(-n)[i - 1];
    }
  }

  /** A netloc ending in a colon and a colon-free port text splits at
      that colon, whatever the host part contains. */
  lemma SplitPortComposed(host: string, text: string)
    requires ':' !in text
    ensures SplitPort(host + ":" + text) == (host, Some(text))
  {
    var netloc := host + ":" + text;
    var i := |host|;
    assert netloc[i] == ':';
    assert netloc[i + 1..] == text;
    assert netloc[..i] == host;
    assert forall j :: i < j < |netloc| ==> netloc[j] == text[j - i - 1];
  }

  lemma FromUrlWithPort(url: string, parts: UrlParts, host: string, text: string, port: int)
    requires parts.scheme == "fluent" && parts.query == "" && parts.fragment == ""
    requires SplitPort(parts.netloc) == (host, Some(text)) && ParseInt(text) == Some(port)
    ensures FromUrl(url, parts) == Success(FluentLoggerFactory(DropFirst(parts.path), host, port))
  {
  }

  /** Given the parts `urlsplit` returns for `fluent://host:port/app`,
      parsing gives back the factory they came from, for every integer
      port (no range check). Such parts come from the URL text only when
      the host has no `/`, `?`, `#` or square bracket and the app has no
      `?` or `#`. */
  lemma FromUrlRoundTrip(url: string, f: FluentLoggerFactory)
    ensures FromUrl(url, ToUrlParts(f)) == Success(f)
  {
    var text := ShowInt(f.port);
    ShowIntHasNoColon(f.port);
    SplitPortComposed(f.host, text);
    ParseShowRoundTrip(f.port);
    FromUrlWithPort(url, ToUrlParts(f), f.host, text, f.port);
    assert DropFirst("/" + f.app) == f.app;
  }

  /** A non-integer port is rejected with the URL in the message, whatever
      the rest of the URL says. */
  lemma FromUrlRejectsBadPort(url: string, parts: UrlParts, i: nat)
    requires SplitPort(parts.netloc).1.Some?
    requires i < |SplitPort(parts.netloc).1.value| && !IsIntChar(SplitPort(parts.netloc).1.value[i])
    ensures FromUrl(url, parts) == Failure(InvalidUrl(url))
  {
    var text := SplitPort(parts.netloc).1.value;
    assert ParseInt(text).None? by {
      assert !IsIntChar(text[i]);
    }
  }

  /** What `FluentSender.emit(tag, data)` is called with. */
  datatype SenderEmit = SenderEmit(tag: string, data: Fields)

  /** `FluentLogger.info(event, **kwds)`: structlog calls it with the
      processed event dictionary as keywords, so the event name arrives as
      `event` and the remaining fields as `kwds`. */
  function Info(eventDict: Fields): (e: SenderEmit)
    requires EventKey in eventDict && eventDict[EventKey].Str?
    ensures e.data.Keys == eventDict.Keys - {EventKey}
    ensures e.data[EventKey := Str(e.tag)] == eventDict
  {
    SenderEmit(eventDict[EventKey].s, eventDict - {EventKey})
  }
}

=== FILE: keyorder.dfy ===
/** Python's ordering of `str` values (code point by code point, a proper
    prefix first) and the sorted key listing that `sorted(d.items())` and
    `json.dumps(..., sort_keys=True)` produce from a dictionary's keys. */
module KeyOrder {

  /** `a < b` on Python strings. */
  predicate Below(a: string, b: string) {
    if |a| == 0 then |b| > 0
    else if |b| == 0 then false
    else if a[0] == b[0] then Below(a[1..], b[1..])
    else a[0] < b[0]
  }

  lemma {:induction false} BelowIrreflexive(a: string)
    ensures !Below(a, a)
  {
    if |a| > 0 {
      BelowIrreflexive(a[1..]);
    }
  }

  lemma {:induction false} BelowAsymmetric(a: string, b: string)
    requires Below(a, b)
    ensures !Below(b, a)
  {
    if |a| > 0 && |b| > 0 && a[0] == b[0] {
      BelowAsymmetric(a[1..], b[1..]);
    }
  }

  lemma {:induction false} BelowTransitive(a: string, b: string, c: string)
    requires Below(a, b) && Below(b, c)
    ensures Below(a, c)
  {
    if |a| > 0 && a[0] == b[0] && b[0] == c[0] {
      BelowTransitive(a[1..], b[1..], c[1..]);
    }
  }

  /** Any two distinct strings are ordered one way or the other. */
  lemma {:induction false} BelowTotal(a: string, b: string)
    requires a != b
    ensures Below(a, b) || Below(b, a)
  {
    if |a| > 0 && |b| > 0 && a[0] == b[0] {
      BelowTotal(a[1..], b[1..]);
    }
  }

  /** `m` is the smallest element of `keys`. */
  predicate IsLeast(m: string, keys: set<string>) {
    m in keys && forall k :: k in keys && k != m ==> Below(m, k)
  }

  lemma {:induction false} LeastExists(keys: set<string>)
    requires keys != {}
    ensures exists m :: IsLeast(m, keys)
    decreases |keys|
  {
    var k :| k in keys;
    if keys == {k} {
      assert IsLeast(k, keys);
    } else {
      var rest := keys - {k};
      LeastExists(rest);
      var m :| IsLeast(m, rest);
      if Below(k, m) {
        forall j | j in keys && j != k
          ensures Below(k, j)
        {
          if j != m {
            BelowTransitive(k, m, j);
          }
        }
        assert IsLeast(k, keys);
      } else {
        BelowTotal(k, m);
        assert IsLeast(m, keys);
      }
    }
  }

  lemma LeastUnique(keys: set<string>)
    ensures forall a, b :: IsLeast(a, keys) && IsLeast(b, keys) ==> a == b
  {
    forall a, b | IsLeast(a, keys) && IsLeast(b, keys)
      ensures a == b
    {
      if a != b {
        BelowAsymmetric(a, b);
      }
    }
  }

  /** Strictly increasing under `Below`. */
  predicate Increasing(s: seq<string>) {
    forall i, j :: 0 <= i < j < |s| ==> Below(s[i], s[j])
  }

  /** The keys of a dictionary listed in increasing order, each once. */
  function SortedKeys(keys: set<string>): (r: seq<string>)
    ensures |r| == |keys|
    ensures forall i :: 0 <= i < |r| ==> r[i] in keys
    ensures forall k :: k in keys ==> k in r
    ensures Increasing(r)
    decreases |keys|
  {
    if keys == {} then []
    else
      LeastExists(keys);
      LeastUnique(keys);
      var m :| IsLeast(m, keys);
      var rest := SortedKeys(keys - {m});
      assert forall i :: 0 <= i < |rest| ==> Below(m, rest[i]);
      [m] + rest
  }

  /** Only one increasing listing has a given set of elements, so a
      concrete listing can be recognised without running the sort. */
  lemma {:induction false} IncreasingUnique(s: seq<string>, t: seq<string>)
    requires Increasing(s) && Increasing(t)
    requires forall x :: x in s <==> x in t
    ensures s == t
    decreases |s|
  {
    if |s| > 0 {
      assert s[0] in s;
    }
    if |t| > 0 {
      assert t[0] in t;
    }
    if |s| > 0 && |t| > 0 {
      if s[0] != t[0] {
        assert s[0] in t && t[0] in s;
        var i :| 0 <= i < |t| && t[i] == s[0];
        var j :| 0 <= j < |s| && s[j] == t[0];
        assert i > 0 && j > 0;
        BelowAsymmetric(t[0], s[0]);
      }
      forall x
        ensures x in s[1..] <==> x in t[1..]
      {
        if x in s[1..] {
          var i :| 1 <= i < |s| && s[i] == x;
          assert Below(s[0], x);
          BelowIrreflexive(x);
          assert x in t;
          var k :| 0 <= k < |t| && t[k] == x;
          assert k > 0 && t[1..][k - 1] == x;
        }
        if x in t[1..] {
          var i :| 1 <= i < |t| && t[i] == x;
          assert Below(t[0], x);
          BelowIrreflexive(x);
          assert x in s;
          var k :| 0 <= k < |s| && s[k] == x;
          assert k > 0 && s[1..][k - 1] == x;
        }
      }
      IncreasingUnique(s[1..], t[1..]);
      assert s == [s[0]] + s[1..] && t == [t[0]] + t[1..];
    }
  }

  /** `SortedKeys` is the listing `sorted()` gives: any increasing
      sequence holding exactly the keys is it. */
  lemma SortedKeysIsSorted(keys: set<string>, s: seq<string>)
    requires Increasing(s)
    requires forall x :: x in s <==> x in keys
    ensures SortedKeys(keys) == s
  {
    IncreasingUnique(SortedKeys(keys), s);
  }
}

=== FILE: lifecycle.dfy ===
/** `HTTPServer` used as an asynchronous context manager: entering creates
    the listening server, leaving closes it, shuts the application down,
    drains connections for a grace period, cleans up and forgets the
    server. Each awaited call is recorded as a step, so a server value
    carries the ordered trace of what was done to it. */
module Lifecycle {
  import opened Wrappers

  /** The grace period handed to `finish_connections`, in seconds. */
  const GraceSeconds: real := 1.0

  /** The calls the context manager makes, in the order it makes them. */
  datatype Step =
    | CreateServer(host: string, port: int)
    | CloseServer
    | WaitClosed
    | AppShutdown
    | FinishConnections(timeout: real)
    | AppCleanup

  /** The context manager's state: whether it holds a running server, and
      the calls made so far. */
  datatype HttpServer = HttpServer(host: string, port: int, running: bool, trace: seq<Step>)

  /** A context manager as constructed, before it is entered. */
  function NewServer(host: string, port: int): (s: HttpServer)
    ensures !s.running && s.trace == []
  {
    HttpServer(host, port, false, [])
  }

  /** The `AssertionError` raised when a guard fails. */
  const AssertionError: string := "AssertionError"

  /** The calls `__aexit__` makes after its guard, in order. */
  const ShutdownSteps: seq<Step> := [CloseServer, WaitClosed, AppShutdown, FinishConnections(GraceSeconds), AppCleanup]

  /** `__aenter__`: refuses when a server is already running, otherwise
      creates one on the configured host and port. */
  function Enter(s: HttpServer): (r: Result<HttpServer, string>)
    ensures r.Success? <==> !s.running
    ensures r.Failure? ==> r.error == AssertionError
    ensures r.Success? ==> r.value.running && r.value.host == s.host && r.value.port == s.port
    ensures r.Success? ==> r.value.trace == s.trace + [CreateServer(s.host, s.port)]
  {
    if s.running then Failure(AssertionError)
    else Success(s.(running := true, trace := s.trace + [CreateServer(s.host, s.port)]))
  }

  /** `__aexit__`: refuses when no server is running, otherwise closes the
      server, waits for it to close, shuts the application down, drains
      connections for the grace period, cleans up, and forgets the server. */
  function Exit(s: HttpServer): (r: Result<HttpServer, string>)
    ensures r.Success? <==> s.running
    ensures r.Failure? ==> r.error == AssertionError
    ensures r.Success? ==> !r.value.running && r.value.host == s.host && r.value.port == s.port
    ensures r.Success? ==> r.value.trace == s.trace + ShutdownSteps
  {
    if !s.running then Failure(AssertionError)
    else Success(s.(running := false, trace := s.trace + ShutdownSteps))
  }

  /** Entering then leaving a fresh server goes through the whole life
      once: create, then the five shutdown calls in order, and the manager
      is idle again. */
  lemma EnterExitCycle(host: string, port: int)
    ensures Enter(NewServer(host, port)).Success?
    ensures Exit(Enter(NewServer(host, port)).value).Success?
    ensures var s := Exit(Enter(NewServer(host, port)).value).value;
      && !s.running
      && s.trace == [CreateServer(host, port), CloseServer, WaitClosed, AppShutdown,
                     FinishConnections(GraceSeconds), AppCleanup]
  {
  }

  /** Neither guard can be passed twice in a row: a running server cannot
      be entered again, an idle one cannot be left. */
  lemma GuardsAlternate(s: HttpServer)
    ensures Enter(s).Success? ==> Enter(Enter(s).value).Failure?
    ensures Exit(s).Success? ==> Exit(Exit(s).value).Failure?
    ensures Enter(s).Success? ==> Exit(Enter(s).value).Success?
    ensures Exit(s).Success? ==> Enter(Exit(s).value).Success?
  {
  }
}

=== FILE: logging.dfy ===
/** `configure_logging`: the logging endpoint descriptor chooses where
    events go and how they are rendered, and every pipeline starts with the
    timestamp processor. The global `structlog.configure` call is replaced
    by returning the configuration as a value; `Emit` then runs one
    `log.info(event, **kw)` call through it. */
module Logging {
  import opened Wrappers
  import opened Events
  import opened Render
  import opened Fluent

  /** Where a printing logger writes. */
  datatype Stream = Stdout | Stderr | FileAt(path: string)

  /** The renderer that ends a printing pipeline. */
  datatype Renderer = KeyValue | Json

  /** The logger factory, with the renderer a printing factory is paired
      with. The fluent pipeline has no renderer. */
  datatype Sink = Print(stream: Stream, renderer: Renderer) | Forward(factory: FluentLoggerFactory)

  /** What `configure_logging` installs: the timestamp processor and the
      sink behind it. */
  datatype LoggingConfig = LoggingConfig(stamper: TimeStamper, sink: Sink)

  const FileScheme: string := "file://"
  const FluentScheme: string := "fluent://"

  /** The message of the `ValueError` for an unknown descriptor. */
  function InvalidEndpoint(endpoint: string): string {
    "Invalid logging endpoint \"" + endpoint + "\"."
  }

  predicate StartsWith(s: string, prefix: string) {
    |prefix| <= |s| && s[..|prefix|] == prefix
  }

  /** The stream a `file://` descriptor names: the two standard streams by
      their device paths, any other text as a path opened for writing. */
  function Destination(path: string): (s: Stream)
    ensures s == Stdout <==> path == "/dev/stdout"
    ensures s == Stderr <==> path == "/dev/stderr"
    ensures s.FileAt? ==> s.path == path
  {
    if path == "/dev/stdout" then Stdout
    else if path == "/dev/stderr" then Stderr
    else FileAt(path)
  }

  /** `configure_logging(log_format, utc, endpoint)`, with `urlsplit`
      supplied by the caller. The stamper always keeps the caller's `utc`:
      the fluent branch's `utc = True` comes after the stamper is built and
      changes nothing. */
  function ConfigureLogging(logFormat: string, utc: bool, endpoint: string,
                            urlsplit: string -> UrlParts): (r: Result<LoggingConfig, string>)
    ensures r.Success? ==> r.value.stamper == TimeStamper(TimestampKey, utc)
    ensures r.Failure? && !StartsWith(endpoint, FluentScheme) ==> r.error == InvalidEndpoint(endpoint)
    ensures r.Failure? && StartsWith(endpoint, FluentScheme) ==> r.error == InvalidUrl(endpoint)
    ensures StartsWith(endpoint, FileScheme) <==> r.Success? && r.value.sink.Print?
    ensures r.Success? && r.value.sink.Print? ==>
      && r.value.sink.stream == Destination(endpoint[|FileScheme|..])
      && (r.value.sink.renderer == KeyValue <==> logFormat == "kv")
    ensures r.Success? && r.value.sink.Forward? ==>
      StartsWith(endpoint, FluentScheme) && FromUrl(endpoint, urlsplit(endpoint)) == Success(r.value.sink.factory)
    ensures StartsWith(endpoint, FluentScheme) && FromUrl(endpoint, urlsplit(endpoint)).Success? ==>
      r.Success? && r.value.sink == Forward(FromUrl(endpoint, urlsplit(endpoint)).value)
  {
    var stamper := TimeStamper(TimestampKey, utc);
    if StartsWith(endpoint, FileScheme) then
      assert !StartsWith(endpoint, FluentScheme) by {
        assert endpoint[1] == FileScheme[1];
      }
      var stream := Destination(endpoint[|FileScheme|..]);
      Success(LoggingConfig(stamper, Print(stream, if logFormat == "kv" then KeyValue else Json)))
    else if StartsWith(endpoint, FluentScheme) then
      assert !StartsWith(endpoint, FileScheme);
      match FromUrl(endpoint, urlsplit(endpoint))
      case Success(factory) => Success(LoggingConfig(stamper, Forward(factory)))
      case Failure(message) => Failure(message)
    else
      Failure(InvalidEndpoint(endpoint))
  }

  const DefaultEndpoint: string := "file:///dev/stdout"

  /** `main`'s choice of endpoint: the command-line argument, else the
      `SMARTMOB_LOGGING_ENDPOINT` variable, else standard output. An empty
      value counts as unset, as Python's `not` treats it. */
  function EndpointSetting(argument: Option<string>, environment: Option<string>): (e: string)
    ensures argument.Some? && argument.value != "" ==> e == argument.value
    ensures argument.GetOr("") == "" && environment.Some? && environment.value != "" ==> e == environment.value
    ensures argument.GetOr("") == "" && environment.GetOr("") == "" ==> e == DefaultEndpoint
  {
    if argument.Some? && argument.value != "" then argument.value
    else if environment.Some? && environment.value != "" then environment.value
    else DefaultEndpoint
  }

  /** The endpoint `main` settles on is never empty and is one of the
      three candidates. */
  lemma EndpointSettingChoosesNonEmpty(argument: Option<string>, environment: Option<string>)
    ensures EndpointSetting(argument, environment) != ""
    ensures EndpointSetting(argument, environment) in
      {argument.GetOr(DefaultEndpoint), environment.GetOr(DefaultEndpoint), DefaultEndpoint}
  {
  }

  /** What one `log.info(event, **kw)` call produces: a rendered line on a
      stream, or one call of the fluent sender. */
  datatype Emission = Line(stream: Stream, items: seq<Item>) | Sent(factory: FluentLoggerFactory, emit: SenderEmit)

  /** The event dictionary structlog builds for `log.info(event, **kw)`. */
  function EventDict(event: string, kw: Fields): Fields {
    kw[EventKey := Str(event)]
  }

  /** One `log.info(event, **kw)` call through the configured pipeline:
      the stamper, then the renderer and a print, or the fluent logger. */
  function Emit(config: LoggingConfig, clock: WallClock, iso: DateTime -> string,
                event: string, kw: Fields): (e: Emission)
    ensures config.sink.Print? <==> e.Line?
    ensures e.Line? ==> e.stream == config.sink.stream
    ensures e.Sent? ==> e.factory == config.sink.factory && e.emit.tag == event
    ensures config.sink.Print? && config.sink.renderer == KeyValue ==>
      e.items == KeyValueItems(Stamp(config.stamper, clock, iso, EventDict(event, kw)))
    ensures config.sink.Print? && config.sink.renderer == Json ==>
      e.items == JsonItems(Stamp(config.stamper, clock, iso, EventDict(event, kw)))
  {
    var stamped := Stamp(config.stamper, clock, iso, EventDict(event, kw));
    match config.sink
    case Print(stream, KeyValue) => Line(stream, KeyValueItems(stamped))
    case Print(stream, Json) => Line(stream, JsonItems(stamped))
    case Forward(factory) => Sent(factory, Info(stamped))
  }

  /** The fields an emission carries, read back from the rendered items or
      from the sender call. */
  function Delivered(e: Emission): Fields {
    match e
    case Line(_, items) => AsFields(items)
    case Sent(_, emit) => emit.data[EventKey := Str(emit.tag)]
  }

  /** Every sink delivers exactly the stamped event: the caller's fields,
      the event name and the timestamp, nothing lost and nothing added. */
  lemma EmitDeliversStampedEvent(config: LoggingConfig, clock: WallClock, iso: DateTime -> string,
                                 event: string, kw: Fields)
    ensures Delivered(Emit(config, clock, iso, event, kw)) == Stamp(config.stamper, clock, iso, EventDict(event, kw))
  {
    var stamped := Stamp(config.stamper, clock, iso, EventDict(event, kw));
    match config.sink
    case Print(_, KeyValue) => KeyValueRoundTrip(stamped);
    case Print(_, Json) => JsonRoundTrip(stamped);
    case Forward(_) =>
  }

  /** A key-value line starts with the timestamp and the event name. */
  lemma KeyValueLineStartsWithTimestampAndEvent(config: LoggingConfig, clock: WallClock,
                                                iso: DateTime -> string, event: string, kw: Fields)
    requires config.sink.Print? && config.sink.renderer == KeyValue
    ensures Emit(config, clock, iso, event, kw).items[0].0 == TimestampKey
    ensures Emit(config, clock, iso, event, kw).items[1] == (EventKey, Str(event))
  {
  }

  /** With no timestamp given, the sender gets the stamper's "now". */
  lemma ForwardedTimestampIsNow(config: LoggingConfig, clock: WallClock, iso: DateTime -> string,
                                event: string, kw: Fields)
    requires config.sink.Forward? && TimestampKey !in kw
    ensures var e := Emit(config, clock, iso, event, kw);
      e.Sent? && TimestampKey in e.emit.data && e.emit.data[TimestampKey] == Str(iso(Now(config.stamper, clock)))
  {
    assert EventKey != TimestampKey by { assert EventKey[0] != TimestampKey[0]; }
  }

  /** The fluent sender receives the timestamp in the caller's choice of
      zone, even though the fluent branch sets `utc = True`: with
      `utc=False` it is the naive local time. */
  lemma FluentTimestampFollowsCaller(logFormat: string, utc: bool, endpoint: string,
                                     urlsplit: string -> UrlParts, clock: WallClock,
                                     iso: DateTime -> string, event: string, kw: Fields)
    requires StartsWith(endpoint, FluentScheme) && FromUrl(endpoint, urlsplit(endpoint)).Success?
    requires TimestampKey !in kw
    ensures var c := ConfigureLogging(logFormat, utc, endpoint, urlsplit);
      && c.Success? && c.value.sink.Forward?
      && var e := Emit(c.value, clock, iso, event, kw);
      && e.Sent? && TimestampKey in e.emit.data
      && e.emit.data[TimestampKey] ==
           Str(iso(if utc then DateTime(clock.utcNow, Utc) else DateTime(clock.localNow, Naive)))
  {
    ForwardedTimestampIsNow(ConfigureLogging(logFormat, utc, endpoint, urlsplit).value, clock, iso, event, kw);
  }
}

=== FILE: middleware.dfy ===
/** The two request middlewares and the response hook: `inject_request_id`
    gives every request an id, `echo_request_id` copies it onto the
    response, and `access_log_middleware` emits one `http.access` event per
    handled request. Header names are written in lower case; the
    case-insensitive lookup of the HTTP library is not modelled. */
module Middleware {
  import opened Wrappers
  import opened Events

  const RequestIdKey: string := "x-request-id"

  /** What stands in for a missing request id. */
  const Unknown: string := "?"

  /** A request: its path, its headers, and the per-request dictionary the
      middlewares write into (`request[...]`). */
  datatype Request = Request(path: string, headers: map<string, string>, store: map<string, string>)

  /** `request.get('x-request-id', '?')`: the stored id, or `?` when the
      request has none. */
  function StoredId(req: Request): (id: string)
    ensures RequestIdKey in req.store ==> id == req.store[RequestIdKey]
    ensures RequestIdKey !in req.store ==> id == Unknown
  {
    if RequestIdKey in req.store then req.store[RequestIdKey] else Unknown
  }

  /** `inject_request_id`: stores the incoming `x-request-id` header when it
      is present and non-empty, otherwise `freshId` (the `uuid4` string,
      supplied by the caller), and changes nothing else. */
  function InjectRequestId(req: Request, freshId: string): (r: Request)
    ensures r.path == req.path && r.headers == req.headers
    ensures r.store.Keys == req.store.Keys + {RequestIdKey}
    ensures forall k :: k in req.store && k != RequestIdKey ==> r.store[k] == req.store[k]
    ensures RequestIdKey in req.headers && req.headers[RequestIdKey] != "" ==>
      StoredId(r) == req.headers[RequestIdKey]
    ensures RequestIdKey !in req.headers || req.headers[RequestIdKey] == "" ==>
      StoredId(r) == freshId
  {
    var given := if RequestIdKey in req.headers then req.headers[RequestIdKey] else "";
    var id := if given != "" then given else freshId;
    req.(store := req.store[RequestIdKey := id])
  }

  /** `echo_request_id`: the response's `x-request-id` header becomes the
      request's stored id, or `?`; no other header changes. */
  function EchoRequestId(req: Request, responseHeaders: map<string, string>): (h: map<string, string>)
    ensures h.Keys == responseHeaders.Keys + {RequestIdKey}
    ensures forall k :: k in responseHeaders && k != RequestIdKey ==> h[k] == responseHeaders[k]
    ensures RequestIdKey in req.store ==> h[RequestIdKey] == req.store[RequestIdKey]
    ensures RequestIdKey !in req.store ==> h[RequestIdKey] == Unknown
  {
    responseHeaders[RequestIdKey := StoredId(req)]
  }

  /** How the wrapped handler finished: it returned a response, raised an
      `HTTPException`, or raised anything else. */
  datatype Outcome = Ok(status: int) | HttpErr(status: int) | Crash

  /** The status the access log records for an outcome. */
  function LoggedStatus(o: Outcome): (s: int)
    ensures o.Crash? ==> s == 500
    ensures !o.Crash? ==> s == o.status
  {
    match o
    case Ok(status) => status
    case HttpErr(status) => status
    case Crash => 500
  }

  /** The access-log middleware as built by `access_log_middleware(app,
      handler)`: the arrival time is read once, when it is built. */
  datatype AccessLogMiddleware = AccessLogMiddleware(arrival: DateTime)

  /** Building the middleware reads the UTC wall clock and marks the
      reading as UTC. */
  function BuildAccessLog(clock: WallClock): (mw: AccessLogMiddleware)
    ensures mw.arrival.reading == clock.utcNow && mw.arrival.zone == Utc
  {
    AccessLogMiddleware(DateTime(clock.utcNow, Utc))
  }

  /** One `event_log.info(event, **kw)` call. */
  datatype LogCall = LogCall(event: string, kw: Fields)

  const AccessEvent: string := "http.access"

  const PathKey: string := "path"
  const OutcomeKey: string := "outcome"
  const DurationKey: string := "duration"
  const RequestKey: string := "request"

  /** The fields of an access event. */
  function AccessFields(path: string, status: int, duration: int, id: string, arrival: DateTime): Fields {
    map[PathKey := Str(path), OutcomeKey := Int(status), DurationKey := Int(duration),
        RequestKey := Str(id), TimestampKey := Time(arrival)]
  }

  /** One request through the access-log middleware. `before` and `after`
      are the two readings of the monotonic clock around the handler, in
      ticks. The event is emitted on every path and the handler's outcome
      is passed on untouched: the response returned, the error re-raised. */
  function AccessLog(mw: AccessLogMiddleware, req: Request, outcome: Outcome,
                     before: int, after: int): (r: (LogCall, Outcome))
    ensures r.1 == outcome
    ensures r.0.event == AccessEvent
    ensures r.0.kw.Keys == {PathKey, OutcomeKey, DurationKey, RequestKey, TimestampKey}
    ensures r.0.kw[PathKey] == Str(req.path)
    ensures r.0.kw[OutcomeKey] == Int(LoggedStatus(outcome))
    ensures r.0.kw[DurationKey] == Int(after - before)
    ensures r.0.kw[RequestKey] == Str(StoredId(req))
    ensures r.0.kw[TimestampKey] == Time(mw.arrival)
  {
    (LogCall(AccessEvent, AccessFields(req.path, LoggedStatus(outcome), after - before, StoredId(req), mw.arrival)), outcome)
  }

  /** One request as it reaches the middleware chain: the request, the id
      `uuid4` would return, the handler's outcome and the clock readings. */
  datatype Exchange = Exchange(request: Request, freshId: string, outcome: Outcome, before: int, after: int)

  /** What the chain `main` installs (`inject_request_id` outermost, then
      the access log, then the handler) makes of one exchange: the log call,
      the outcome passed on, and the `x-request-id` header the response
      carries. The header of the page the HTTP library writes after a crash
      is not modelled (`None`). */
  datatype Handled = Handled(log: LogCall, outcome: Outcome, responseId: Option<string>)

  /** `call` is the access event of exchange `x`: the right path and
      status, stamped with the middleware's arrival time. */
  predicate Records(call: LogCall, mw: AccessLogMiddleware, x: Exchange) {
    && call.event == AccessEvent
    && OutcomeKey in call.kw && call.kw[OutcomeKey] == Int(LoggedStatus(x.outcome))
    && PathKey in call.kw && call.kw[PathKey] == Str(x.request.path)
    && DurationKey in call.kw && call.kw[DurationKey] == Int(x.after - x.before)
    && TimestampKey in call.kw && call.kw[TimestampKey] == Time(mw.arrival)
  }

  /** One exchange through the chain: its access event records it, its
      outcome passes through, and its response carries an id unless the
      handler crashed. */
  function HandleRequest(mw: AccessLogMiddleware, x: Exchange): (h: Handled)
    ensures Records(h.log, mw, x)
    ensures h.outcome == x.outcome
    ensures x.outcome.Crash? <==> h.responseId.None?
  {
    var tagged := InjectRequestId(x.request, x.freshId);
    var (call, passed) := AccessLog(mw, tagged, x.outcome, x.before, x.after);
    var echoed := if passed.Crash? then None else Some(EchoRequestId(tagged, map[])[RequestIdKey]);
    Handled(call, passed, echoed)
  }

  /** Correlation: the id in the access event and on the response is the
      incoming header when it is present and non-empty, the fresh id
      otherwise. */
  lemma HandleRequestCorrelates(mw: AccessLogMiddleware, x: Exchange)
    ensures var h := HandleRequest(mw, x);
      var id := if RequestIdKey in x.request.headers && x.request.headers[RequestIdKey] != ""
                then x.request.headers[RequestIdKey] else x.freshId;
      && h.log.kw[RequestKey] == Str(id)
      && (!x.outcome.Crash? ==> h.responseId == Some(id))
  {
  }

  /** The access log of a run of requests through one middleware instance,
      one call per request. */
  function AccessLogAll(mw: AccessLogMiddleware, xs: seq<Exchange>): seq<LogCall> {
    if |xs| == 0 then []
    else AccessLogAll(mw, xs[..|xs| - 1]) + [HandleRequest(mw, xs[|xs| - 1]).log]
  }

  lemma {:induction false} AccessLogAllLength(mw: AccessLogMiddleware, xs: seq<Exchange>)
    ensures |AccessLogAll(mw, xs)| == |xs|
  {
    if |xs| > 0 {
      AccessLogAllLength(mw, xs[..|xs| - 1]);
    }
  }

  /** The `i`-th event of a logged run records the `i`-th exchange. */
  lemma {:induction false} AccessLogAllRecordsAt(mw: AccessLogMiddleware, xs: seq<Exchange>, i: nat)
    requires i < |xs|
    ensures |AccessLogAll(mw, xs)| == |xs|
    ensures Records(AccessLogAll(mw, xs)[i], mw, xs[i])
  {
    var init := xs[..|xs| - 1];
    AccessLogAllLength(mw, xs);
    AccessLogAllLength(mw, init);
    if i < |init| {
      AccessLogAllRecordsAt(mw, init, i);
      assert AccessLogAll(mw, xs)[i] == AccessLogAll(mw, init)[i];
    } else {
    }
  }

  /** The logged run has one event per exchange, each recording it. */
  lemma AccessLogAllRecords(mw: AccessLogMiddleware, xs: seq<Exchange>)
    ensures |AccessLogAll(mw, xs)| == |xs|
    ensures forall i :: 0 <= i < |xs| ==> Records(AccessLogAll(mw, xs)[i], mw, xs[i])
  {
    AccessLogAllLength(mw, xs);
    forall i | 0 <= i < |xs|
      ensures Records(AccessLogAll(mw, xs)[i], mw, xs[i])
    {
      AccessLogAllRecordsAt(mw, xs, i);
    }
  }
}

=== FILE: render.dfy ===
/** The order in which the two local renderers lay out an event: the
    key-value renderer built with `sort_keys=True` and
    `key_order=['@timestamp', 'event']`, and the JSON renderer built with
    `sort_keys=True`. How each value is printed (Python `repr`, JSON
    encoding) is not modelled; a rendering is its sequence of items. */
module Render {
  import opened Events
  import opened KeyOrder

  type Item = (string, Value)

  /** `d.pop(k, None)`: a key missing from the event renders as `None`. */
  function Lookup(d: Fields, k: string): Value {
    if k in d then d[k] else Null
  }

  /** The keys of a rendering, in order. */
  function KeysOf(items: seq<Item>): (ks: seq<string>)
    ensures |ks| == |items|
    ensures forall i :: 0 <= i < |items| ==> ks[i] == items[i].0
  {
    if |items| == 0 then [] else [items[0].0] + KeysOf(items[1..])
  }

  /** Every item carries the event's own value for its key. */
  predicate AgreesWith(items: seq<Item>, d: Fields) {
    forall i :: 0 <= i < |items| ==> items[i].0 in d && items[i].1 == d[items[i].0]
  }

  /** The items of `d` for the given keys, in that order. */
  function ItemsOf(d: Fields, keys: seq<string>): (r: seq<Item>)
    requires forall i :: 0 <= i < |keys| ==> keys[i] in d
    ensures KeysOf(r) == keys
    ensures AgreesWith(r, d)
  {
    if |keys| == 0 then [] else [(keys[0], d[keys[0]])] + ItemsOf(d, keys[1..])
  }

  /** Key-value layout: `@timestamp`, then `event`, then every other key
      in increasing order. */
  function KeyValueItems(d: Fields): (r: seq<Item>)
    ensures |r| >= 2
    ensures r[0] == (TimestampKey, Lookup(d, TimestampKey))
    ensures r[1] == (EventKey, Lookup(d, EventKey))
    ensures AgreesWith(r[2..], d)
    ensures forall k :: k in KeysOf(r[2..]) <==> k in d && k != TimestampKey && k != EventKey
    ensures Increasing(KeysOf(r[2..]))
  {
    var tail := ItemsOf(d, SortedKeys(d.Keys - {TimestampKey, EventKey}));
    var r := [(TimestampKey, Lookup(d, TimestampKey)), (EventKey, Lookup(d, EventKey))] + tail;
    assert r[2..] == tail;
    r
  }

  /** JSON layout: every key of the event in increasing order. */
  function JsonItems(d: Fields): (r: seq<Item>)
    ensures AgreesWith(r, d)
    ensures forall k :: k in KeysOf(r) <==> k in d
    ensures Increasing(KeysOf(r))
  {
    ItemsOf(d, SortedKeys(d.Keys))
  }

  /** Reading a rendering back into a dictionary (a later item wins). */
  function AsFields(items: seq<Item>): Fields {
    if |items| == 0 then map[]
    else AsFields(items[..|items| - 1])[items[|items| - 1].0 := items[|items| - 1].1]
  }

  /** A rendering whose every item agrees with `d` reads back as `d`
      restricted to the rendered keys. */
  lemma {:induction false} AsFieldsFaithful(items: seq<Item>, d: Fields)
    requires AgreesWith(items, d)
    ensures forall k :: k in AsFields(items) <==> k in KeysOf(items)
    ensures forall k :: k in AsFields(items) ==> AsFields(items)[k] == d[k]
  {
    if |items| > 0 {
      var init := items[..|items| - 1];
      AsFieldsFaithful(init, d);
      assert KeysOf(items) == KeysOf(init) + [items[|items| - 1].0];
    }
  }

  /** The JSON rendering holds exactly the event: read back, it is the
      event dictionary. */
  lemma JsonRoundTrip(d: Fields)
    ensures AsFields(JsonItems(d)) == d
  {
    AsFieldsFaithful(JsonItems(d), d);
  }

  /** A rendering that agrees with `d` and lists every key of it reads
      back as `d`. */
  lemma CoveringReadsBack(items: seq<Item>, d: Fields)
    requires AgreesWith(items, d)
    requires forall k :: k in d ==> k in KeysOf(items)
    ensures AsFields(items) == d
  {
    AsFieldsFaithful(items, d);
    var m := AsFields(items);
    forall k | k in m
      ensures k in d
    {
      var i :| 0 <= i < |items| && KeysOf(items)[i] == k;
    }
    assert m.Keys == d.Keys;
  }

  lemma KeysOfConcat(a: seq<Item>, b: seq<Item>)
    ensures KeysOf(a + b) == KeysOf(a) + KeysOf(b)
  {
    forall i | 0 <= i < |a| + |b|
      ensures KeysOf(a + b)[i] == (KeysOf(a) + KeysOf(b))[i]
    {
      if i < |a| {
        assert (a + b)[i] == a[i];
      } else {
        assert (a + b)[i] == b[i - |a|];
      }
    }
  }

  /** Once the event has its timestamp and name, the key-value rendering
      also holds exactly the event. */
  lemma KeyValueRoundTrip(d: Fields)
    requires TimestampKey in d && EventKey in d
    ensures AsFields(KeyValueItems(d)) == d
  {
    var rest := SortedKeys(d.Keys - {TimestampKey, EventKey});
    var head := [(TimestampKey, d[TimestampKey]), (EventKey, d[EventKey])];
    var tail := ItemsOf(d, rest);
    var r := KeyValueItems(d);
    assert r == head + tail;
    KeysOfConcat(head, tail);
    assert KeysOf(r) == [TimestampKey, EventKey] + rest;
    assert AgreesWith(r, d);
    CoveringReadsBack(r, d);
  }
}

=== FILE: service.dfy ===
/** `main`: choose the logging endpoint, configure logging, build the
    application with its middlewares, serve inside the `HTTPServer`
    context until cancelled, then log `stop`. The run is described by its
    inputs, and its result is the ordered trace of server calls and log
    calls. Cancellation (Ctrl-C) is the point where serving ends. */
module Service {
  import opened Wrappers
  import opened Events
  import opened Fluent
  import opened Logging
  import opened Middleware
  import opened Lifecycle

  /** One entry of a run's trace. */
  datatype TraceItem = Did(step: Step) | Logged(call: LogCall)

  const StopEvent: string := "stop"

  /** The last log call `main` makes. */
  const StopCall: LogCall := LogCall(StopEvent, map[])

  /** How far the shutdown had got when a request still in flight as
      `close` runs logs its access event: `__aexit__` does not wait for
      such requests before `close`, `wait_closed` and `app.shutdown`, and
      `finish_connections` gives them the grace period. */
  datatype Stage = AfterClose | AfterWaitClosed | AfterAppShutdown | DuringFinish

  /** The number of shutdown calls made before a request finishing at
      `stage` logs. */
  function CallsBefore(stage: Stage): (n: nat)
    ensures 1 <= n <= 4
  {
    match stage
    case AfterClose => 1
    case AfterWaitClosed => 2
    case AfterAppShutdown => 3
    case DuringFinish => 4
  }

  /** A request still in flight when `close` runs, and the shutdown stage after which it logs. */
  datatype Drained = Drained(exchange: Exchange, stage: Stage)

  /** Everything a run of `main` depends on: the `--logging-endpoint`
      argument, the `SMARTMOB_LOGGING_ENDPOINT` variable, the address to
      listen on, the wall clock when the access-log middleware is built,
      the requests that log before `close`, and the requests drained
      during the shutdown, both in the order they log. */
  datatype Run = Run(argument: Option<string>, environment: Option<string>,
                     host: string, port: int, buildClock: WallClock,
                     served: seq<Exchange>, drained: seq<Drained>)

  /** Server calls as trace entries, in order. */
  function StepsOf(steps: seq<Step>): (r: seq<TraceItem>)
    ensures |r| == |steps|
    ensures forall i :: 0 <= i < |r| ==> r[i] == Did(steps[i])
  {
    if |steps| == 0 then [] else [Did(steps[0])] + StepsOf(steps[1..])
  }

  /** Log calls as trace entries, in order. */
  function CallsOf(calls: seq<LogCall>): (r: seq<TraceItem>)
    ensures |r| == |calls|
    ensures forall i :: 0 <= i < |r| ==> r[i] == Logged(calls[i])
  {
    if |calls| == 0 then [] else [Logged(calls[0])] + CallsOf(calls[1..])
  }

  /** The server calls of a trace, in order. */
  function ServerCalls(trace: seq<TraceItem>): seq<Step> {
    if |trace| == 0 then []
    else (if trace[0].Did? then [trace[0].step] else []) + ServerCalls(trace[1..])
  }

  /** The log calls of a trace, in order. */
  function LogCalls(trace: seq<TraceItem>): seq<LogCall> {
    if |trace| == 0 then []
    else (if trace[0].Logged? then [trace[0].call] else []) + LogCalls(trace[1..])
  }

  lemma {:induction false} ServerCallsConcat(a: seq<TraceItem>, b: seq<TraceItem>)
    ensures ServerCalls(a + b) == ServerCalls(a) + ServerCalls(b)
  {
    if |a| > 0 {
      assert (a + b)[1..] == a[1..] + b;
      ServerCallsConcat(a[1..], b);
    } else {
      assert a + b == b;
    }
  }

  lemma {:induction false} LogCallsConcat(a: seq<TraceItem>, b: seq<TraceItem>)
    ensures LogCalls(a + b) == LogCalls(a) + LogCalls(b)
  {
    if |a| > 0 {
      assert (a + b)[1..] == a[1..] + b;
      LogCallsConcat(a[1..], b);
    } else {
      assert a + b == b;
    }
  }

  /** Server calls as trace entries hold no log call. */
  lemma {:induction false} CallsOfSteps(steps: seq<Step>)
    ensures ServerCalls(StepsOf(steps)) == steps
    ensures LogCalls(StepsOf(steps)) == []
  {
    if |steps| > 0 {
      assert StepsOf(steps)[1..] == StepsOf(steps[1..]);
      CallsOfSteps(steps[1..]);
    }
  }

  /** Log calls as trace entries hold no server call. */
  lemma {:induction false} CallsOfCalls(calls: seq<LogCall>)
    ensures ServerCalls(CallsOf(calls)) == []
    ensures LogCalls(CallsOf(calls)) == calls
  {
    if |calls| > 0 {
      assert CallsOf(calls)[1..] == CallsOf(calls[1..]);
      CallsOfCalls(calls[1..]);
    }
  }

  /** `__aexit__` from its `k`-th call on, interleaved with the access
      events of the drained requests `ds`: each request logs once the
      calls its stage follows have been made, and never before the
      request ahead of it. */
  function Shutdown(steps: seq<Step>, k: nat, mw: AccessLogMiddleware, ds: seq<Drained>): (r: seq<TraceItem>)
    requires k <= |steps|
    ensures |r| == |steps| - k + |ds|
    decreases |steps| - k + |ds|
  {
    if |ds| == 0 then StepsOf(steps[k..])
    else if k < |steps| && k < CallsBefore(ds[0].stage) then [Did(steps[k])] + Shutdown(steps, k + 1, mw, ds)
    else [Logged(HandleRequest(mw, ds[0].exchange).log)] + Shutdown(steps, k, mw, ds[1..])
  }

  /** The drained requests never reorder the shutdown calls. */
  lemma {:induction false} ShutdownKeepsSteps(steps: seq<Step>, k: nat, mw: AccessLogMiddleware, ds: seq<Drained>)
    requires k <= |steps|
    ensures ServerCalls(Shutdown(steps, k, mw, ds)) == steps[k..]
    decreases |steps| - k + |ds|
  {
    if |ds| == 0 {
      CallsOfSteps(steps[k..]);
    } else if k < |steps| && k < CallsBefore(ds[0].stage) {
      ShutdownKeepsSteps(steps, k + 1, mw, ds);
      ServerCallsConcat([Did(steps[k])], Shutdown(steps, k + 1, mw, ds));
      assert steps[k..] == [steps[k]] + steps[k + 1..];
    } else {
      var call := HandleRequest(mw, ds[0].exchange).log;
      ShutdownKeepsSteps(steps, k, mw, ds[1..]);
      ServerCallsConcat([Logged(call)], Shutdown(steps, k, mw, ds[1..]));
    }
  }

  /** During the shutdown the log holds one access event per drained
      request, in order, each recording its request. */
  lemma {:induction false} ShutdownLogsDrained(steps: seq<Step>, k: nat, mw: AccessLogMiddleware, ds: seq<Drained>)
    requires k <= |steps|
    ensures |LogCalls(Shutdown(steps, k, mw, ds))| == |ds|
    ensures forall j :: 0 <= j < |ds| ==> Records(LogCalls(Shutdown(steps, k, mw, ds))[j], mw, ds[j].exchange)
    decreases |steps| - k + |ds|
  {
    var r := Shutdown(steps, k, mw, ds);
    if |ds| == 0 {
      CallsOfSteps(steps[k..]);
    } else if k < |steps| && k < CallsBefore(ds[0].stage) {
      var rest := Shutdown(steps, k + 1, mw, ds);
      assert r == [Did(steps[k])] + rest;
      ShutdownLogsDrained(steps, k + 1, mw, ds);
      LogCallsConcat([Did(steps[k])], rest);
      assert LogCalls(r) == LogCalls(rest);
    } else {
      var call := HandleRequest(mw, ds[0].exchange).log;
      var rest := Shutdown(steps, k, mw, ds[1..]);
      assert r == [Logged(call)] + rest;
      ShutdownLogsDrained(steps, k, mw, ds[1..]);
      LogCallsConcat([Logged(call)], rest);
      var logged := LogCalls(rest);
      assert LogCalls(r) == [call] + logged;
      forall j | 0 <= j < |ds|
        ensures Records(LogCalls(r)[j], mw, ds[j].exchange)
      {
        if j > 0 {
          assert LogCalls(r)[j] == logged[j - 1];
          assert ds[1..][j - 1] == ds[j];
        }
      }
    }
  }

  /** Every log call made during the shutdown is an access event. */
  lemma {:induction false} ShutdownLogsOnlyAccess(steps: seq<Step>, k: nat, mw: AccessLogMiddleware, ds: seq<Drained>)
    requires k <= |steps|
    ensures forall i :: 0 <= i < |Shutdown(steps, k, mw, ds)| && Shutdown(steps, k, mw, ds)[i].Logged? ==>
      Shutdown(steps, k, mw, ds)[i].call.event == AccessEvent
    decreases |steps| - k + |ds|
  {
    var r := Shutdown(steps, k, mw, ds);
    if |ds| == 0 {
      assert r == StepsOf(steps[k..]);
    } else {
      var head: TraceItem, rest: seq<TraceItem>;
      if k < |steps| && k < CallsBefore(ds[0].stage) {
        head, rest := Did(steps[k]), Shutdown(steps, k + 1, mw, ds);
        ShutdownLogsOnlyAccess(steps, k + 1, mw, ds);
      } else {
        head, rest := Logged(HandleRequest(mw, ds[0].exchange).log), Shutdown(steps, k, mw, ds[1..]);
        ShutdownLogsOnlyAccess(steps, k, mw, ds[1..]);
      }
      assert r == [head] + rest;
      assert head.Logged? ==> head.call.event == AccessEvent;
      forall i | 0 < i < |r| && r[i].Logged?
        ensures r[i].call.event == AccessEvent
      {
        assert r[i] == rest[i - 1];
      }
    }
  }

  /** No request logs before the first call, `close`, has been made. */
  lemma ShutdownStartsWithFirstStep(steps: seq<Step>, mw: AccessLogMiddleware, ds: seq<Drained>)
    requires |steps| > 0
    ensures Shutdown(steps, 0, mw, ds)[0] == Did(steps[0])
  {
  }

  /** With five calls or more, the last call, `app.cleanup`, comes after
      every drained request has logged. */
  lemma {:induction false} ShutdownEndsWithLastStep(steps: seq<Step>, k: nat, mw: AccessLogMiddleware, ds: seq<Drained>)
    requires 5 <= |steps| && k < |steps|
    ensures var r := Shutdown(steps, k, mw, ds); r[|r| - 1] == Did(steps[|steps| - 1])
    decreases |steps| - k + |ds|
  {
    var r := Shutdown(steps, k, mw, ds);
    if |ds| == 0 {
      var t := steps[k..];
      assert r == StepsOf(t);
      assert r[|r| - 1] == Did(t[|t| - 1]);
    } else {
      var head: TraceItem, rest: seq<TraceItem>;
      if k < CallsBefore(ds[0].stage) {
        head, rest := Did(steps[k]), Shutdown(steps, k + 1, mw, ds);
        ShutdownEndsWithLastStep(steps, k + 1, mw, ds);
      } else {
        head, rest := Logged(HandleRequest(mw, ds[0].exchange).log), Shutdown(steps, k, mw, ds[1..]);
        ShutdownEndsWithLastStep(steps, k, mw, ds[1..]);
      }
      assert r == [head] + rest;
      assert r[|r| - 1] == rest[|rest| - 1];
    }
  }

  /** A run of `main`: the logging configuration it installs and its trace,
      or the error that stops it before it serves anything. A run fails
      exactly when its logging endpoint is rejected, with the rejection's
      message. */
  function RunMain(run: Run, urlsplit: string -> UrlParts): (r: Result<(LoggingConfig, seq<TraceItem>), string>)
    ensures var c := ConfigureLogging("iso", true, EndpointSetting(run.argument, run.environment), urlsplit);
      && (r.Failure? <==> c.Failure?)
      && (c.Failure? ==> r.error == c.error)
      && (c.Success? ==> r.value.0 == c.value)
  {
    EnterExitCycle(run.host, run.port);
    var endpoint := EndpointSetting(run.argument, run.environment);
    var config :- ConfigureLogging("iso", true, endpoint, urlsplit);
    var mw := BuildAccessLog(run.buildClock);
    var entered := Enter(NewServer(run.host, run.port)).value;
    var accesses := AccessLogAll(mw, run.served);
    var left := Exit(entered).value;
    Success((config, StepsOf(entered.trace) + CallsOf(accesses)
                     + Shutdown(left.trace[|entered.trace|..], 0, mw, run.drained) + [Logged(StopCall)]))
  }

  /** The middleware instance a run builds. */
  function RunMiddleware(run: Run): AccessLogMiddleware {
    BuildAccessLog(run.buildClock)
  }

  /** The trace of a run that gets past configuration, in the order in
      which `main` makes its calls: create the server, one access event
      per request that logs before `close`, the five shutdown calls with
      the drained requests' events among them, then `stop`. */
  function Layout(run: Run): seq<TraceItem> {
    TraceOf(run.host, run.port, AccessLogAll(RunMiddleware(run), run.served),
            Shutdown(ShutdownSteps, 0, RunMiddleware(run), run.drained))
  }

  /** The order in which `main` makes its calls, for a server on
      `host:port`, the access-log calls made while serving, and the
      shutdown: create, serve, shut down, log `stop`. */
  function TraceOf(host: string, port: int, calls: seq<LogCall>, shutdown: seq<TraceItem>): seq<TraceItem> {
    [Did(CreateServer(host, port))] + CallsOf(calls) + shutdown + [Logged(StopCall)]
  }

  /** The access-log calls sit right after the server is created, and the
      shutdown right after them. */
  lemma TraceOfParts(host: string, port: int, calls: seq<LogCall>, shutdown: seq<TraceItem>)
    ensures |TraceOf(host, port, calls, shutdown)| == |calls| + |shutdown| + 2
    ensures forall i :: 0 <= i < |calls| ==> TraceOf(host, port, calls, shutdown)[i + 1] == Logged(calls[i])
    ensures forall i :: 0 <= i < |shutdown| ==>
      TraceOf(host, port, calls, shutdown)[i + |calls| + 1] == shutdown[i]
  {
    var trace := TraceOf(host, port, calls, shutdown);
    forall i | 0 <= i < |calls|
      ensures trace[i + 1] == Logged(calls[i])
    {
      assert trace[i + 1] == CallsOf(calls)[i];
    }
  }

  /** The server calls of a trace laid out this way: create, then those
      of the shutdown. */
  lemma TraceOfServerCalls(host: string, port: int, calls: seq<LogCall>, shutdown: seq<TraceItem>)
    ensures ServerCalls(TraceOf(host, port, calls, shutdown)) == [CreateServer(host, port)] + ServerCalls(shutdown)
  {
    var head: seq<TraceItem> := [Did(CreateServer(host, port))];
    var stop: seq<TraceItem> := [Logged(StopCall)];
    var tail := shutdown + stop;
    var middle := CallsOf(calls) + tail;
    assert TraceOf(host, port, calls, shutdown) == head + middle;
    ServerCallsConcat(shutdown, stop);
    assert ServerCalls(tail) == ServerCalls(shutdown) by {
      assert ServerCalls(stop) == [];
    }
    ServerCallsConcat(CallsOf(calls), tail);
    CallsOfCalls(calls);
    ServerCallsConcat(head, middle);
  }

  /** A configured run's trace follows the order in which `main` makes
      its calls. */
  lemma MainFollowsLayout(run: Run, urlsplit: string -> UrlParts)
    requires ConfigureLogging("iso", true, EndpointSetting(run.argument, run.environment), urlsplit).Success?
    ensures RunMain(run, urlsplit).value.1 == Layout(run)
  {
    var entered := Enter(NewServer(run.host, run.port)).value;
    var left := Exit(entered).value;
    assert left.trace[|entered.trace|..] == ShutdownSteps;
    assert StepsOf(entered.trace) == [Did(CreateServer(run.host, run.port))];
  }

  /** The order of a run: the server is created first, then come the
      access events of the requests that log before `close`, then
      `close`; the server calls are create and the five shutdown calls in
      order; `app.cleanup` comes after every access event, and `stop` is
      logged last. */
  lemma LayoutOrder(run: Run)
    ensures var trace := Layout(run);
      var n := |run.served|;
      && |trace| == n + |run.drained| + 7
      && trace[0] == Did(CreateServer(run.host, run.port))
      && trace[n + 1] == Did(CloseServer)
      && trace[|trace| - 2] == Did(AppCleanup)
      && trace[|trace| - 1] == Logged(StopCall)
      && ServerCalls(trace) == [CreateServer(run.host, run.port)] + ShutdownSteps
  {
    var mw := RunMiddleware(run);
    var calls := AccessLogAll(mw, run.served);
    var shutdown := Shutdown(ShutdownSteps, 0, mw, run.drained);
    AccessLogAllLength(mw, run.served);
    TraceOfParts(run.host, run.port, calls, shutdown);
    TraceOfServerCalls(run.host, run.port, calls, shutdown);
    ShutdownStartsWithFirstStep(ShutdownSteps, mw, run.drained);
    ShutdownEndsWithLastStep(ShutdownSteps, 0, mw, run.drained);
    ShutdownKeepsSteps(ShutdownSteps, 0, mw, run.drained);
    assert Layout(run)[|Layout(run)| - 2] == shutdown[|shutdown| - 1];
  }

  /** The access events logged while serving record their requests, in
      order. */
  lemma TraceOfServed(host: string, port: int, mw: AccessLogMiddleware, xs: seq<Exchange>, shutdown: seq<TraceItem>)
    ensures |TraceOf(host, port, AccessLogAll(mw, xs), shutdown)| == |xs| + |shutdown| + 2
    ensures forall i :: 0 <= i < |xs| ==>
      TraceOf(host, port, AccessLogAll(mw, xs), shutdown)[i + 1].Logged? &&
      Records(TraceOf(host, port, AccessLogAll(mw, xs), shutdown)[i + 1].call, mw, xs[i])
  {
    var calls := AccessLogAll(mw, xs);
    AccessLogAllRecords(mw, xs);
    TraceOfParts(host, port, calls, shutdown);
  }

  /** Between creating the server and closing it, the trace holds one
      access event per request that logs before `close`, in order,
      each recording its request. */
  lemma LayoutServedEvents(run: Run)
    ensures |Layout(run)| == |run.served| + |run.drained| + 7
    ensures forall i :: 0 <= i < |run.served| ==>
      Layout(run)[i + 1].Logged? && Records(Layout(run)[i + 1].call, RunMiddleware(run), run.served[i])
  {
    var mw := RunMiddleware(run);
    var shutdown := Shutdown(ShutdownSteps, 0, mw, run.drained);
    assert Layout(run) == TraceOf(run.host, run.port, AccessLogAll(mw, run.served), shutdown);
    TraceOfServed(run.host, run.port, mw, run.served, shutdown);
  }

  /** Between the access-log calls made while serving and `stop`, a trace
      laid out this way is the shutdown. */
  lemma TraceOfShutdown(host: string, port: int, calls: seq<LogCall>, shutdown: seq<TraceItem>)
    ensures var trace := TraceOf(host, port, calls, shutdown);
      |calls| + 1 <= |trace| - 1 && trace[|calls| + 1..|trace| - 1] == shutdown
  {
    var head := [Did(CreateServer(host, port))] + CallsOf(calls);
    assert TraceOf(host, port, calls, shutdown) == head + shutdown + [Logged(StopCall)];
  }

  /** From `close` up to `stop`, the trace is the shutdown: it opens with
      `close`, ends with `app.cleanup`, makes the five shutdown calls in
      order, and logs exactly the drained requests' events among them. */
  lemma LayoutShutdownSegment(run: Run)
    ensures |run.served| + 1 < |Layout(run)| - 1
    ensures var seg := Layout(run)[|run.served| + 1..|Layout(run)| - 1];
      && seg[0] == Did(CloseServer)
      && seg[|seg| - 1] == Did(AppCleanup)
      && ServerCalls(seg) == ShutdownSteps
      && |LogCalls(seg)| == |run.drained|
      && forall j :: 0 <= j < |run.drained| ==> Records(LogCalls(seg)[j], RunMiddleware(run), run.drained[j].exchange)
  {
    var mw := RunMiddleware(run);
    var calls := AccessLogAll(mw, run.served);
    var shutdown := Shutdown(ShutdownSteps, 0, mw, run.drained);
    assert Layout(run) == TraceOf(run.host, run.port, calls, shutdown);
    AccessLogAllLength(mw, run.served);
    TraceOfShutdown(run.host, run.port, calls, shutdown);
    ShutdownStartsWithFirstStep(ShutdownSteps, mw, run.drained);
    ShutdownEndsWithLastStep(ShutdownSteps, 0, mw, run.drained);
    ShutdownKeepsSteps(ShutdownSteps, 0, mw, run.drained);
    ShutdownLogsDrained(ShutdownSteps, 0, mw, run.drained);
  }

  /** A trace laid out this way whose other log calls are all access
      events logs `stop` only at its end. */
  lemma TraceOfStopOnlyAtEnd(host: string, port: int, calls: seq<LogCall>, shutdown: seq<TraceItem>)
    requires forall i :: 0 <= i < |calls| ==> calls[i].event == AccessEvent
    requires forall i :: 0 <= i < |shutdown| && shutdown[i].Logged? ==> shutdown[i].call.event == AccessEvent
    ensures forall i :: 0 <= i < |TraceOf(host, port, calls, shutdown)| - 1 ==>
      TraceOf(host, port, calls, shutdown)[i] != Logged(StopCall)
  {
    var trace := TraceOf(host, port, calls, shutdown);
    TraceOfParts(host, port, calls, shutdown);
    assert StopEvent != AccessEvent by { assert StopEvent[0] != AccessEvent[0]; }
    var n := |calls|;
    forall i | 0 <= i < |trace| - 1
      ensures trace[i] != Logged(StopCall)
    {
      if 1 <= i <= n {
        assert trace[i] == Logged(calls[i - 1]);
      } else if i > n {
        assert trace[i] == shutdown[i - n - 1];
      }
    }
  }

  /** Nothing before the last entry is the `stop` call: every other log
      call is an `http.access` event and the rest are server calls. */
  lemma StopOnlyAtEnd(run: Run)
    ensures forall i :: 0 <= i < |Layout(run)| - 1 ==> Layout(run)[i] != Logged(StopCall)
  {
    var mw := RunMiddleware(run);
    var calls := AccessLogAll(mw, run.served);
    var shutdown := Shutdown(ShutdownSteps, 0, mw, run.drained);
    assert Layout(run) == TraceOf(run.host, run.port, calls, shutdown);
    AccessLogAllRecords(mw, run.served);
    ShutdownLogsOnlyAccess(ShutdownSteps, 0, mw, run.drained);
    TraceOfStopOnlyAtEnd(run.host, run.port, calls, shutdown);
  }

  /** `stop` is logged exactly once, as the final entry: no access event
      can be mistaken for it. */
  lemma StopLoggedOnceAtEnd(run: Run, urlsplit: string -> UrlParts)
    requires ConfigureLogging("iso", true, EndpointSetting(run.argument, run.environment), urlsplit).Success?
    ensures var trace := RunMain(run, urlsplit).value.1;
      && trace[|trace| - 1] == Logged(StopCall)
      && forall i :: 0 <= i < |trace| - 1 ==> trace[i] != Logged(StopCall)
  {
    MainFollowsLayout(run, urlsplit);
    LayoutOrder(run);
    StopOnlyAtEnd(run);
  }

  /** With neither the argument nor the variable set, `main` logs to
      standard output as sorted-key JSON (its `iso` format is not `kv`),
      with UTC timestamps. */
  lemma MainDefaultsToJsonOnStdout(run: Run, urlsplit: string -> UrlParts)
    requires run.argument.GetOr("") == "" && run.environment.GetOr("") == ""
    ensures RunMain(run, urlsplit).Success?
    ensures RunMain(run, urlsplit).value.0 == LoggingConfig(TimeStamper(TimestampKey, true), Print(Stdout, Json))
  {
    EnterExitCycle(run.host, run.port);
    assert DefaultEndpoint[..|FileScheme|] == FileScheme;
    assert DefaultEndpoint[|FileScheme|..] == "/dev/stdout";
  }

  /** Whatever sink is configured and whenever the event is emitted, an
      access event carries the arrival time of its middleware, not the
      time of emission: the stamper only formats it. */
  lemma AccessEventKeepsArrivalTime(config: LoggingConfig, clock: WallClock, iso: DateTime -> string,
                                    mw: AccessLogMiddleware, x: Exchange)
    ensures var call := HandleRequest(mw, x).log;
      var delivered := Delivered(Emit(config, clock, iso, call.event, call.kw));
      TimestampKey in delivered && delivered[TimestampKey] == Str(iso(mw.arrival))
  {
    var call := HandleRequest(mw, x).log;
    var d := EventDict(call.event, call.kw);
    assert EventKey != TimestampKey by { assert EventKey[0] != TimestampKey[0]; }
    assert TimestampKey in d && d[TimestampKey] == Time(mw.arrival);
    EmitDeliversStampedEvent(config, clock, iso, call.event, call.kw);
  }
}

=== FILE: vectors.dfy ===
/** The repository's own test cases for URL parsing, endpoint selection,
    key order and the fluent sender, stated as facts about the model. */
module Vectors {
  import opened Wrappers
  import opened Decimal
  import opened Events
  import opened KeyOrder
  import opened Render
  import opened Fluent
  import opened Logging

  lemma DigitsValueStep(s: string, c: char)
    requires AllDigits(s) && IsDigit(c)
    ensures AllDigits(s + [c]) && DigitsValue(s + [c]) == DigitsValue(s) * 10 + DigitValue(c)
  {
    assert (s + [c])[..|s|] == s;
  }

  /** The port text of the fluentd default reads as 24224. */
  lemma DigitsValueFive(text: string)
    requires text == "24224"
    ensures AllDigits(text) && DigitsValue(text) == 24224
  {
    assert DigitsValue(['2']) == 2 by {
      DigitsValueStep([], '2');
      assert [] + ['2'] == ['2'];
    }
    assert DigitsValue(['2', '4']) == 24 by {
      DigitsValueStep(['2'], '4');
      assert ['2'] + ['4'] == ['2', '4'];
    }
    assert DigitsValue(['2', '4', '2']) == 242 by {
      DigitsValueStep(['2', '4'], '2');
      assert ['2', '4'] + ['2'] == ['2', '4', '2'];
    }
    assert DigitsValue(['2', '4', '2', '2']) == 2422 by {
      DigitsValueStep(['2', '4', '2'], '2');
      assert ['2', '4', '2'] + ['2'] == ['2', '4', '2', '2'];
    }
    DigitsValueStep(['2', '4', '2', '2'], '4');
    assert text == ['2', '4', '2', '2'] + ['4'];
  }

  /** A full fluent URL names host, port and application. */
  lemma FluentUrlWithPort()
    ensures FromUrl("fluent://127.0.0.1:24224/the-app",
                    UrlParts("fluent", "127.0.0.1:24224", "/the-app", "", ""))
            == Success(FluentLoggerFactory("the-app", "127.0.0.1", 24224))
  {
    SplitPortComposed("127.0.0.1", "24224");
    assert "127.0.0.1" + ":" + "24224" == "127.0.0.1:24224";
    var text := "24224";
    DigitsValueFive(text);
    ParseDigits(text);
    FromUrlWithPort("fluent://127.0.0.1:24224/the-app", UrlParts("fluent", "127.0.0.1:24224", "/the-app", "", ""),
                    "127.0.0.1", "24224", 24224);
  }

  /** Without a port, the fluentd default is used. */
  lemma FluentUrlWithoutPort()
    ensures FromUrl("fluent://127.0.0.1/the-app", UrlParts("fluent", "127.0.0.1", "/the-app", "", ""))
            == Success(FluentLoggerFactory("the-app", "127.0.0.1", DefaultPort))
    ensures FromUrl("fluent://127.0.0.1/", UrlParts("fluent", "127.0.0.1", "/", "", ""))
            == Success(FluentLoggerFactory("", "127.0.0.1", DefaultPort))
  {
    FromUrlDefaultPort("fluent://127.0.0.1/the-app", "127.0.0.1", "/the-app");
    FromUrlDefaultPort("fluent://127.0.0.1/", "127.0.0.1", "/");
  }

  /** A port that is not a number, a misspelt scheme and a query string
      are each rejected with the URL in the message. */
  lemma FluentUrlRejected()
    ensures FromUrl("fluent://127.0.0.1:abcd/the-app", UrlParts("fluent", "127.0.0.1:abcd", "/the-app", "", ""))
            == Failure(InvalidUrl("fluent://127.0.0.1:abcd/the-app"))
    ensures FromUrl("fluentd://127.0.0.1:abcd/the-app", UrlParts("fluentd", "127.0.0.1:abcd", "/the-app", "", ""))
            == Failure(InvalidUrl("fluentd://127.0.0.1:abcd/the-app"))
    ensures FromUrl("fluent://127.0.0.1:24224/the-app?hello=1",
                    UrlParts("fluent", "127.0.0.1:24224", "/the-app", "hello=1", ""))
            == Failure(InvalidUrl("fluent://127.0.0.1:24224/the-app?hello=1"))
  {
    SplitPortComposed("127.0.0.1", "abcd");
    assert "127.0.0.1" + ":" + "abcd" == "127.0.0.1:abcd";
    FromUrlRejectsBadPort("fluent://127.0.0.1:abcd/the-app",
                          UrlParts("fluent", "127.0.0.1:abcd", "/the-app", "", ""), 0);
  }

  /** `file://` endpoints print to the named stream or file; with `kv`
      the renderer is key-value. */
  lemma FileEndpoints(urlsplit: string -> UrlParts)
    ensures ConfigureLogging("kv", false, "file:///dev/stdout", urlsplit)
            == Success(LoggingConfig(TimeStamper(TimestampKey, false), Print(Stdout, KeyValue)))
    ensures ConfigureLogging("kv", false, "file:///dev/stderr", urlsplit)
            == Success(LoggingConfig(TimeStamper(TimestampKey, false), Print(Stderr, KeyValue)))
    ensures ConfigureLogging("kv", false, "file://./gitmesh.log", urlsplit)
            == Success(LoggingConfig(TimeStamper(TimestampKey, false), Print(FileAt("./gitmesh.log"), KeyValue)))
    ensures ConfigureLogging("json", false, "file:///dev/stderr", urlsplit)
            == Success(LoggingConfig(TimeStamper(TimestampKey, false), Print(Stderr, Json)))
  {
    assert "file:///dev/stdout"[7..] == "/dev/stdout";
    assert "file:///dev/stderr"[7..] == "/dev/stderr";
    assert "file://./gitmesh.log"[7..] == "./gitmesh.log";
  }

  /** An unknown scheme is rejected with the endpoint in the message. */
  lemma UnknownScheme(urlsplit: string -> UrlParts)
    ensures ConfigureLogging("kv", false, "flume://127.0.0.1:44444", urlsplit)
            == Failure(InvalidEndpoint("flume://127.0.0.1:44444"))
  {
    assert "flume://127.0.0.1:44444"[1] != FileScheme[1];
    assert "flume://127.0.0.1:44444"[3] != FluentScheme[3];
  }

  /** The keyword arguments of `log.info('teh.event', a=1, b=2)`. */
  const SampleKw: Fields := map["a" := Int(1), "b" := Int(2)]

  /** Stamping the sample event gives the keys timestamp, event, `a`, `b`. */
  lemma StampedSampleKeys(config: LoggingConfig, clock: WallClock, iso: DateTime -> string)
    ensures Stamp(config.stamper, clock, iso, EventDict("teh.event", SampleKw)).Keys
            == {TimestampKey, EventKey, "a", "b"}
  {
    assert EventDict("teh.event", SampleKw).Keys == {EventKey, "a", "b"};
  }

  lemma KeyValueOrderOf(d: Fields, x: string, y: string)
    requires d.Keys == {TimestampKey, EventKey, x, y}
    requires x != TimestampKey && x != EventKey && y != TimestampKey && y != EventKey && Below(x, y)
    ensures KeysOf(KeyValueItems(d)) == [TimestampKey, EventKey, x, y]
  {
    var r := KeyValueItems(d);
    assert KeysOf(r[2..]) == [x, y] by {
      IncreasingUnique(KeysOf(r[2..]), [x, y]);
    }
    assert r == r[..2] + r[2..];
    KeysOfConcat(r[..2], r[2..]);
  }

  lemma JsonOrderOf(d: Fields)
    requires d.Keys == {TimestampKey, EventKey, "a", "b"}
    ensures KeysOf(JsonItems(d)) == [TimestampKey, "a", "b", EventKey]
  {
    assert d.Keys == {TimestampKey, "a", "b", EventKey};
    assert Below(TimestampKey, "a") && Below("a", "b") && Below("b", EventKey);
    SortedKeysIsSorted(d.Keys, [TimestampKey, "a", "b", EventKey]);
  }

  /** `log.info('teh.event', a=1, b=2)` with `log_format='kv'` and the
      endpoint `file:///dev/stderr` prints timestamp, event, then the rest
      in order. */
  lemma KeyValueOrder(urlsplit: string -> UrlParts, clock: WallClock, iso: DateTime -> string)
    ensures var c := ConfigureLogging("kv", false, "file:///dev/stderr", urlsplit);
      && c.Success?
      && var e := Emit(c.value, clock, iso, "teh.event", SampleKw);
      && e.Line? && e.stream == Stderr
      && KeysOf(e.items) == [TimestampKey, EventKey, "a", "b"]
  {
    FileEndpoints(urlsplit);
    var config := ConfigureLogging("kv", false, "file:///dev/stderr", urlsplit).value;
    var stamped := Stamp(config.stamper, clock, iso, EventDict("teh.event", SampleKw));
    StampedSampleKeys(config, clock, iso);
    assert EventKey[0] != TimestampKey[0];
    KeyValueOrderOf(stamped, "a", "b");
  }

  /** The same call with `log_format='json'` prints all keys sorted, so
      `event` comes last. */
  lemma JsonOrder(urlsplit: string -> UrlParts, clock: WallClock, iso: DateTime -> string)
    ensures var c := ConfigureLogging("json", false, "file:///dev/stderr", urlsplit);
      && c.Success?
      && var e := Emit(c.value, clock, iso, "teh.event", SampleKw);
      && e.Line? && e.stream == Stderr
      && KeysOf(e.items) == [TimestampKey, "a", "b", EventKey]
  {
    FileEndpoints(urlsplit);
    var config := ConfigureLogging("json", false, "file:///dev/stderr", urlsplit).value;
    var stamped := Stamp(config.stamper, clock, iso, EventDict("teh.event", SampleKw));
    StampedSampleKeys(config, clock, iso);
    JsonOrderOf(stamped);
  }

  /** The fluent configuration of the sender tests, with `utc=False`. */
  const FluentEndpoint: string := "fluent://127.0.0.1:24224/the-app"

  /** The configuration the fluent tests install. */
  const FluentConfig: LoggingConfig :=
    LoggingConfig(TimeStamper(TimestampKey, false), Forward(FluentLoggerFactory("the-app", "127.0.0.1", 24224)))

  lemma FluentEndpointIsFluent()
    ensures StartsWith(FluentEndpoint, FluentScheme)
  {
    assert FluentEndpoint[..|FluentScheme|] == FluentScheme;
  }

  /** `configure_logging(log_format='kv', utc=False, endpoint=...)` with the
      fluent endpoint installs exactly `FluentConfig`: the format is
      ignored and the sender is built from the URL. */
  lemma FluentEndpointConfig(urlsplit: string -> UrlParts)
    requires urlsplit(FluentEndpoint) == UrlParts("fluent", "127.0.0.1:24224", "/the-app", "", "")
    ensures ConfigureLogging("kv", false, FluentEndpoint, urlsplit) == Success(FluentConfig)
  {
    var parts := urlsplit(FluentEndpoint);
    FluentUrlWithPort();
    assert FromUrl(FluentEndpoint, parts) == Success(FluentLoggerFactory("the-app", "127.0.0.1", 24224));
    FluentEndpointIsFluent();
    var r := ConfigureLogging("kv", false, FluentEndpoint, urlsplit);
    assert r.Success? && r.value.sink == Forward(FluentLoggerFactory("the-app", "127.0.0.1", 24224));
    assert r.value.stamper == TimeStamper(TimestampKey, false);
  }

  /** The sender is called with the event name as tag and the fields with
      a naive local timestamp. */
  lemma FluentEmission(clock: WallClock, iso: DateTime -> string)
    ensures Emit(FluentConfig, clock, iso, "teh.event", SampleKw).emit
            == SenderEmit("teh.event", SampleKw[TimestampKey := Str(iso(DateTime(clock.localNow, Naive)))])
  {
    assert EventKey != TimestampKey by { assert EventKey[0] != TimestampKey[0]; }
    assert EventKey != "a" && EventKey != "b";
  }

  /** A timestamp given as text is passed on as it is. */
  lemma FluentEmissionKeepsTextTimestamp(clock: WallClock, iso: DateTime -> string)
    ensures var kw := SampleKw[TimestampKey := Str("2016-05-08T21:19:00")];
      Emit(FluentConfig, clock, iso, "teh.event", kw).emit == SenderEmit("teh.event", kw)
  {
    assert EventKey != TimestampKey by { assert EventKey[0] != TimestampKey[0]; }
    assert EventKey != "a" && EventKey != "b";
  }

  /** A timestamp given as a datetime is formatted. */
  lemma FluentEmissionFormatsTimestamp(clock: WallClock, iso: DateTime -> string, given: DateTime)
    ensures Emit(FluentConfig, clock, iso, "teh.event", SampleKw[TimestampKey := Time(given)]).emit
            == SenderEmit("teh.event", SampleKw[TimestampKey := Str(iso(given))])
  {
    assert EventKey != TimestampKey by { assert EventKey[0] != TimestampKey[0]; }
    assert EventKey != "a" && EventKey != "b";
  }
}

=== FILE: wrappers.dfy ===
/** Failure-compatible wrappers shared by the whole model: `Option` for a
    value that may be missing and `Result` for an operation that raises. */
module Wrappers {

  /** A value that may be absent (Python's `None`). */
  datatype Option<+T> = None | Some(value: T) {

    /** The wrapped value, or `default` when there is none. */
    function GetOr(default: T): (r: T)
      ensures Some? ==> r == value
      ensures None? ==> r == default
    {
      match this
      case Some(v) => v
      case None => default
    }
  }

  /** The outcome of an operation that either returns a value or raises an
      error carrying a message. */
  datatype Result<+R, +E> = Success(value: R) | Failure(error: E) {

    predicate IsFailure() {
      Failure?
    }

    function PropagateFailure<U>(): Result<U, E>
      requires Failure?
    {
      Failure(error)
    }

    function Extract(): R
      requires Success?
    {
      value
    }
  }
}
